=== FILE: README.md ===
# Corner-kick statistics of the flashscore scraper, in Dafny

The scraper reads two league tables and two match lists from flashscore. It
downloads the statistics payload of every match and reads the home and away
corner counts out of it. It credits both teams of every match and ranks all
teams by their average total corners. This project models the pure core of
that pipeline and proves properties of it:

- `text.dfy` (`Text`): character classes, the greedy run of a character class,
  and decimal digits (`int()` of a digit run and its inverse).
- `utils.dfy` (`Utils`): `get_corners` and `get_match_id`. Each regular
  expression is described twice. The first description says declaratively where
  the pattern occurs and with which groups. The second is the scan that finds
  the leftmost occurrence. The lemmas connect the two descriptions and prove the
  round trips.
- `models.dfy` (`Models`): the `Team` record and its three `avg_*` averages.
  Each average is the mean of the first ten samples, rounded to hundredths, or
  0 for an empty list.
- `leagues.dfy` (`Leagues`): the team table, a dict whose key insertion order
  is kept explicitly, and `dict.update`.
- `aggregation.dfy` (`Aggregation`): the loop over the matches, with its error
  outcomes and a per-team reference definition of what the loop produces.
- `ranking.dfy` (`Ranking`): the stable descending sort by average total
  corners.
- `pipeline.dfy` (`Pipeline`) and `outcomes.dfy` (`Outcomes`): the whole data
  flow from the two tables to the ranking, and two general runs. In one a fetch
  fails; in the other two teams have equal averages.
- `scenarios.dfy` (`Scenarios`): the same two runs on three concrete clubs.
- `results.dfy` (`Results`): `Option` and `Result`.

The tables, the match lists and the payload of every match are inputs. In the
program they come from browser automation and HTTP calls.

The run does not skip a match it cannot take. A failed fetch, a payload
without the marker or an unknown team name makes the code raise, so the run
ends and nothing is written:

- `get_corners(None)` raises `TypeError` when the fetch returned nothing.
- In `teams[home].team_corners.append(corners["team_1"])` the home team is
  looked up first, so an unknown home team raises `KeyError` even when the
  payload has no marker. Otherwise indexing a `None` reading raises
  `TypeError`, and an unknown away team raises `KeyError`.

The model returns `Err` with the failure of the first match the loop cannot
take (`Aggregation.Failure`). The code fetches one payload at a time inside
the loop, in match order, so the model has no concurrency.

## Model

| member | source | states |
|---|---|---|
| Utils.GetCorners | src/utils.py:12-14 | a reading's total is the sum of its home and away counts, and both counts are non-negative |
| Utils.GetCornersIsLeftmostMatch | src/utils.py:9-15 | the result is `None` exactly when no substring matches `Угловые¬SH÷\d+¬SI÷\d+`; otherwise it holds the two groups of the leftmost match, whatever groups the match has |
| Utils.FindMarkerIsLeftmost | src/utils.py:10 | the search finds nothing exactly when no position matches; otherwise it gives a matching position with no match before it |
| Utils.ReadAtCorrect | src/utils.py:9-13 | reading at one position succeeds exactly when the pattern matches there, and then it yields the values of the matched digit groups |
| Utils.CornersIgnoreLaterText | src/utils.py:10 | appending text after a payload that already has a marker, more markers included, leaves the reading unchanged unless the text starts with a digit |
| Utils.CornersRoundTrip | src/utils.py:9-14 | a marker written with counts `a` and `b` reads back as `(a, b, a + b)` when the prefix has no marker and the suffix does not start with a digit |
| Utils.ThreeAndFiveMakeEight | src/utils.py:9-14 | the payload with counts 3 and 5 reads as home 3, away 5, total 8 |
| Utils.FindMid | src/utils.py:23 | the search for `mid=` followed by a letter or digit finds nothing exactly when there is no such position, and otherwise gives the leftmost one |
| Utils.IdAt | src/utils.py:22-24 | the group taken at a match is non-empty, alphanumeric and not followed by another letter or digit |
| Utils.IdOccursAtUnique | src/utils.py:22 | the greedy group at a position is unique, and a position with a group is one where the pattern matches |
| Utils.GetMatchId | src/utils.py:18-24 | `None` (where the source raises) exactly when no `mid=` is followed by a letter or digit; otherwise the non-empty, maximal alphanumeric run after the leftmost such `mid=` |
| Utils.MatchIdRoundTrip | src/utils.py:22-24 | `prefix + "mid=" + id + suffix` yields `id` when `id` is non-empty and alphanumeric, the suffix does not extend it, and the prefix has no match and does not end in `mid=` |
| Utils.MidRoundTripNeedsCleanPrefix | src/utils.py:22-24 | after `xmid=`, the text `mid=abc` yields the identifier `mid`, so the round trip's last precondition is needed |
| Text.ValueOfDecimal | src/utils.py:12-13 | `int()` of the decimal digits of `n` is `n` |
| Text.Value | src/utils.py:12-13 | `int()` of a digit run is 0 exactly when every digit is `0` |
| Models.NewTeam | src/models.py:5-12 | a new team stores the titles and the id as given, has three empty lists and all averages 0 |
| Models.Record | src/main.py:33-39 | one credit appends exactly one value to each list, leaves the identity alone, and keeps the lists in lock-step with total = own + enemy |
| Models.FirstSamples | src/models.py:16 | the averaged window is the prefix of length `min(10, len)` |
| Models.TrailingMean | src/models.py:16 | the mean times the number of samples in the window is their sum; 0 for an empty list |
| Models.Round2 | src/models.py:16 | the rounded value is a multiple of 0.01 within 0.005 of the mean |
| Models.Average | src/models.py:14-24 | an `avg_*` property is 0 for an empty list and otherwise within 0.005 of the mean of the first `min(10, len)` samples |
| Models.AvgTeamCorners | src/models.py:14-16 | `avg_team_corners` is the average of the team's own corners |
| Models.AvgEnemyCorners | src/models.py:18-20 | `avg_enemy_corners` is the average of the opponents' corners |
| Models.AvgTotalCorners | src/models.py:22-24 | `avg_total_corners` is the average of the match totals |
| Models.EmptyAveragesAreZero | src/models.py:14-24 | every average of a team without samples is 0 |
| Models.AverageOfFirstSamples | src/models.py:16 | for a non-empty list with `k = min(10, len)` the average is `round(sum(s[:k]) / k, 2)` |
| Models.AverageIgnoresLaterSamples | src/models.py:16 | appending to a list of ten or more samples does not change its average |
| Models.AveragesAreIndependent | src/models.py:14-24 | appending to one of the three lists leaves the other two averages unchanged |
| Models.TrailingMeanBounds | src/models.py:16 | the exact mean lies between the smallest and the largest sample of the window |
| Models.AverageBounds | src/models.py:14-24 | the rounded average lies between the smallest and the largest sample of the window, and is non-negative for non-negative samples |
| Leagues.Update | src/main.py:19-20 | `dict.update`: the keys are the union; the second table's teams win; the first table's other teams are kept; the first table's key order is kept and new keys follow in the second table's order |
| Leagues.Values | src/main.py:44 | `teams.values()` lists the teams in key insertion order |
| Aggregation.FailureOf | src/main.py:30-37 | a failed fetch gives `NoStats` for that match; otherwise an unknown home team gives `UnknownTeam(home)` even without a marker; otherwise a missing marker gives `NoCorners` for that match; otherwise the error is `UnknownTeam(away)` |
| Aggregation.UnknownHomeComesBeforeMissingMarker | src/main.py:31-33 | with an unknown home team and a fetched payload, the match fails with `KeyError` for the home team whether or not the payload has a marker |
| Aggregation.EmptyPayloadUnknownHome | src/main.py:31-33 | the empty payload has no marker, and the match `X` against `Y` on an empty table fails with `UnknownTeam("X")` |
| Aggregation.Step | src/main.py:30-39 | one match succeeds exactly when its payload has a reading and both teams are known, and otherwise fails with the error Python raises first; on success the table keeps its keys and their order |
| Aggregation.StepCredits | src/main.py:33-39 | on success the home team gets the reading, the away team the mirrored reading, a team listed on both sides gets both in that order, and no other team changes |
| Aggregation.AggregateMatchesShares | src/main.py:29-39 | after a successful loop every payload had a reading, the keys and their order are unchanged, and each team holds its old lists followed by the shares of the matches it played, in match order |
| Aggregation.AggregateOutcome | src/main.py:29-33 | the loop succeeds exactly when every match can be taken, and otherwise fails with the error of the first match that cannot |
| Aggregation.Aggregate | src/main.py:29-39 | the matches are taken in list order and the first failure ends the loop; a successful loop keeps the table's keys and their insertion order |
| Aggregation.AggregateLeavesBystanders | src/main.py:29-39 | a team named in no match keeps its record |
| Aggregation.AggregateKeepsInvariants | src/main.py:33-39 | lock-step list lengths, total = own + enemy at every index, non-negative counts and the identity fields survive the loop |
| Aggregation.StepMatchesShares | src/main.py:33-39 | one step appends to each team exactly what the per-team reference says for that match |
| Aggregation.AggregateConcat | src/main.py:24-29 | running over `ms1 + ms2` is running over `ms1` and then over `ms2` |
| Ranking.Rank | src/main.py:43-45 | the ranking is a permutation of its input and is non-increasing in average total corners |
| Ranking.Key | src/main.py:44 | the sort key is `avg_total_corners` |
| Ranking.RankIsStable | src/main.py:43-45 | teams with equal average total corners keep their input order |
| Ranking.DescendingIsDeterminedByKeys | src/main.py:43-45 | a descending list is determined by the order of its teams within each average |
| Ranking.RankIsTheStableSort | src/main.py:43-45 | every descending arrangement that keeps the input order among equal averages equals the ranking |
| Pipeline.Run | src/main.py:16-45 | a successful run comes from a successful loop, and lists that loop's teams, one per key of the merged table, permuted into non-increasing average total corners |
| Pipeline.RunSucceedsIffAllAccepted | src/main.py:19-39 | the run succeeds exactly when the merged table can take every match of the first list and then of the second |
| Pipeline.RunFailsAtFirstRejected | src/main.py:29-33 | a failed run reports the error of the first match that cannot be taken |
| Pipeline.RunRanksTheAggregate | src/main.py:19-45 | a successful run outputs the per-team reference results for the merged table, permuted into descending order, with equal averages in table order |
| Outcomes.MissingPayloadStopsTheRun | src/main.py:29-33 | for any tables, when the merged table can take the first match and the fetch for the second match returns nothing, the run fails with that match's error and does not skip it |
| Outcomes.TieKeepsMergedOrder | src/main.py:19-45 | for any tables that merge to `g, b, a`, the single match `g` against `b` with reading 4-5 ranks `g`, then `b` (both average 9), then `a` |
| Scenarios.FailedFetchAbortsTheRanking | src/main.py:19-33 | Girona–Betis reads 4-5 and the Girona–Arsenal fetch fails: the run ends with `NoStats("m2")` |
| Scenarios.TieKeepsTableOrder | src/main.py:19-45 | with Girona–Betis alone, Girona and Betis both average 9 and are ranked in table order, ahead of Arsenal |

## Left out

- `src/parser.py` is not part of this model. It holds `get_teams` and `get_matches`, which drive a browser and parse HTML, and `get_stat`, which is an HTTP request. The tables, match lists and payloads are inputs instead.
- The CSV export and the logging setup of `src/main.py` (lines 8-13 and 47-65) are file and console output.
- Models.TrailingMean: the mean is an exact rational number. `statistics.mean` on Python ints also sums exactly, but it returns an int when the mean is whole and a float otherwise. Neither the type nor the float conversion is modelled.
- Models.Round2: rounds half up on exact decimals. Python's `round(x, 2)` rounds the binary float half to even. The contract's half-open band `r - 0.005 <= x < r + 0.005` is specific to rounding half up: Python gives `round(1.125, 2) == 1.12`, where `x == r + 0.005`. Nothing else in the model depends on the strict upper bound; the other lemmas use only that the result keeps the mean's integer bounds.
- Models.Average: inherits `Round2`'s half-open band, so its strict upper bound also holds only for rounding half up.
- Utils.GetCorners: `\d` is modelled as the ASCII digits `0`-`9`. Python's `\d` also accepts other Unicode decimal digits.
- Utils.GetMatchId: returns `None` where the source raises `AttributeError` on `None.group`.
- Aggregation.Step: when the home team is known and the away team is not, Python has already appended to the home team's lists when `KeyError` is raised. The model returns only the error, because the exception ends the program before anything is written.
- The code has no concurrency: it fetches one payload at a time, in match order, and so does the model.
- Text.Value: reads a digit run of any length. Python's `int()` raises `ValueError` on a decimal string of more than 4300 digits (the default `sys.int_max_str_digits`), which would end the run inside `get_corners`; that error path is not modelled, so `Utils.GetCorners` and `Utils.CornersRoundTrip` read such counts as numbers.

=== FILE: aggregation.dfy ===
/** The aggregation loop of `src/main.py`: for each match, in list order, the
    statistics payload is read and both teams of the match are credited.

    The payload of each match (what `get_stat` returned for its identifier, or
    `None`) is an input, aligned with the match list. The loop aborts on the first
    match whose payload is missing or has no corner marker, or that names a team the
    table does not know: Python raises there, and nothing is written. */
module Aggregation {
  import opened Results
  import opened Utils
  import opened Models
  import opened Leagues

  /** A scheduled match: identifier, home team name, away team name. */
  datatype Match = Match(id: string, home: string, away: string)

  /** Why a run aborts. */
  datatype Failure =
    | NoStats(matchId: string)     // `get_corners(None)`: `re.search` raises `TypeError`
    | NoCorners(matchId: string)   // `corners["team_1"]` on `None` raises `TypeError`
    | UnknownTeam(name: string)    // `teams[name]` raises `KeyError`

  /** One match's contribution to one team: its own corners, the opponent's, the total. */
  datatype Share = Share(own: int, enemy: int, total: int)

  /** The corner reading of a payload, if it is present and has the marker. */
  function ReadingOf(stat: Option<string>): Option<Corners> {
    if stat.None? then None else GetCorners(stat.value)
  }

  predicate HasReading(stat: Option<string>) {
    ReadingOf(stat).Some?
  }

  /** The loop can take this match: the payload has a reading and both teams are known. */
  predicate Accepts(names: set<string>, m: Match, stat: Option<string>) {
    HasReading(stat) && m.home in names && m.away in names
  }

  /** The error Python raises on a match the loop cannot take, in evaluation order:
      `get_corners` runs first; in `teams[home].team_corners.append(corners["team_1"])`
      the home team is looked up before the reading is indexed; the home team's
      lists are extended before the away team is looked up. */
  function FailureOf(names: set<string>, m: Match, stat: Option<string>): (f: Failure)
    requires !Accepts(names, m, stat)
    ensures f.NoStats? <==> stat.None?
    ensures f.NoStats? ==> f.matchId == m.id
    ensures stat.Some? && m.home !in names ==> f == UnknownTeam(m.home)
    ensures stat.Some? && m.home in names && !HasReading(stat) ==> f == NoCorners(m.id)
    ensures stat.Some? && m.home in names && HasReading(stat) ==> f == UnknownTeam(m.away)
    ensures f.UnknownTeam? ==> stat.Some? && f.name !in names && (f.name == m.home || f.name == m.away)
    ensures f.UnknownTeam? && f.name == m.away && m.away != m.home ==> m.home in names && HasReading(stat)
    ensures f.NoCorners? ==> f.matchId == m.id && stat.Some? && !HasReading(stat) && m.home in names
  {
    if stat.None? then NoStats(m.id)
    else if m.home !in names then UnknownTeam(m.home)
    else if ReadingOf(stat).None? then NoCorners(m.id)
    else UnknownTeam(m.away)
  }

  /** An unknown home team is reported before a payload without the marker: the
      lookup `teams[home]` comes before `corners["team_1"]`. */
  lemma UnknownHomeComesBeforeMissingMarker(r: Roster, m: Match, payload: string)
    requires m.home !in r.teams
    ensures Step(r, m, Some(payload)) == Err(UnknownTeam(m.home))
  {
  }

  /** The empty payload has no marker, and a table without `X` reports `X`. */
  lemma EmptyPayloadUnknownHome()
    ensures GetCorners("") == None
    ensures Step(Roster([], map[]), Match("m", "X", "Y"), Some("")) == Err(UnknownTeam("X"))
  {
  }

  /** Appends one match's counts to the lists of the team called `name`. */
  function Credit(r: Roster, name: string, own: int, enemy: int, total: int): (r': Roster)
    requires name in r.teams
    ensures r'.order == r.order && r'.teams.Keys == r.teams.Keys
  {
    r.(teams := r.teams[name := Record(r.teams[name], own, enemy, total)])
  }

  /** One iteration of the loop (lines 30-39). */
  function Step(r: Roster, m: Match, stat: Option<string>): (res: Result<Roster, Failure>)
    ensures res.Ok? <==> Accepts(r.teams.Keys, m, stat)
    ensures res.Err? ==> res.error == FailureOf(r.teams.Keys, m, stat)
    ensures res.Ok? ==> res.value.order == r.order && res.value.teams.Keys == r.teams.Keys
  {
    if !Accepts(r.teams.Keys, m, stat) then Err(FailureOf(r.teams.Keys, m, stat))
    else
      var c := ReadingOf(stat).value;
      var r1 := Credit(r, m.home, c.home, c.away, c.total);
      Ok(Credit(r1, m.away, c.away, c.home, c.total))
  }

  /** A successful step credits the home team with the reading, the away team with
      the mirrored reading, and changes no other team. A team listed on both sides
      is credited twice, home side first. */
  lemma StepCredits(r: Roster, m: Match, stat: Option<string>)
    requires Accepts(r.teams.Keys, m, stat)
    ensures var c := ReadingOf(stat).value;
      var done := Step(r, m, stat).value;
      && (m.home != m.away ==>
            && done.teams[m.home] == Record(r.teams[m.home], c.home, c.away, c.total)
            && done.teams[m.away] == Record(r.teams[m.away], c.away, c.home, c.total))
      && (m.home == m.away ==>
            done.teams[m.home] == Record(Record(r.teams[m.home], c.home, c.away, c.total), c.away, c.home, c.total))
      && forall n :: n in r.teams && n != m.home && n != m.away ==> done.teams[n] == r.teams[n]
  {
  }

  /** The whole loop (lines 29-39): the matches in list order, stopping at the
      first failure. */
  function Aggregate(r: Roster, ms: seq<Match>, stats: seq<Option<string>>): (res: Result<Roster, Failure>)
    requires |ms| == |stats|
    ensures res.Ok? ==> res.value.order == r.order && res.value.teams.Keys == r.teams.Keys
    decreases |ms|
  {
    if |ms| == 0 then Ok(r)
    else match Step(r, ms[0], stats[0])
      case Err(f) => Err(f)
      case Ok(r1) => Aggregate(r1, ms[1..], stats[1..])
  }

  // ---------------------------------------------------------------------------
  // A per-team reference: what a team's lists end up holding
  // ---------------------------------------------------------------------------

  /** What match `m` with reading `c` adds for the team called `name`: the reading
      as is when it plays at home, mirrored when it plays away, both when it is
      listed on both sides. */
  function SharesOf(name: string, m: Match, c: Corners): seq<Share> {
    (if m.home == name then [Share(c.home, c.away, c.total)] else [])
    + (if m.away == name then [Share(c.away, c.home, c.total)] else [])
  }

  /** The readings of payloads that all have one. */
  function Readings(stats: seq<Option<string>>): (cs: seq<Corners>)
    requires forall i :: 0 <= i < |stats| ==> HasReading(stats[i])
    ensures |cs| == |stats| && forall i :: 0 <= i < |stats| ==> ReadingOf(stats[i]) == Some(cs[i])
  {
    seq(|stats|, i requires 0 <= i < |stats| && HasReading(stats[i]) => ReadingOf(stats[i]).value)
  }

  /** Everything the matches add for the team called `name`, in match order, given
      the reading of each match. */
  function Shares(name: string, ms: seq<Match>, cs: seq<Corners>): seq<Share>
    requires |ms| == |cs|
  {
    if |ms| == 0 then [] else SharesOf(name, ms[0], cs[0]) + Shares(name, ms[1..], cs[1..])
  }

  function Owns(sh: seq<Share>): (v: seq<int>)
    ensures |v| == |sh| && forall i :: 0 <= i < |sh| ==> v[i] == sh[i].own
  {
    seq(|sh|, i requires 0 <= i < |sh| => sh[i].own)
  }

  function Enemies(sh: seq<Share>): (v: seq<int>)
    ensures |v| == |sh| && forall i :: 0 <= i < |sh| ==> v[i] == sh[i].enemy
  {
    seq(|sh|, i requires 0 <= i < |sh| => sh[i].enemy)
  }

  function Totals(sh: seq<Share>): (v: seq<int>)
    ensures |v| == |sh| && forall i :: 0 <= i < |sh| ==> v[i] == sh[i].total
  {
    seq(|sh|, i requires 0 <= i < |sh| => sh[i].total)
  }

  /** A team's record after the given shares were appended. */
  function Extend(t: Team, sh: seq<Share>): Team {
    t.(teamCorners := t.teamCorners + Owns(sh),
       enemyCorners := t.enemyCorners + Enemies(sh),
       totalCorners := t.totalCorners + Totals(sh))
  }

  lemma ExtendTwice(t: Team, a: seq<Share>, b: seq<Share>)
    ensures Extend(Extend(t, a), b) == Extend(t, a + b)
  {
    OwnsConcat(a, b);
    EnemiesConcat(a, b);
    TotalsConcat(a, b);
    var once := Extend(t, a);
    assert once.teamCorners + Owns(b) == t.teamCorners + Owns(a + b);
    assert once.enemyCorners + Enemies(b) == t.enemyCorners + Enemies(a + b);
    assert once.totalCorners + Totals(b) == t.totalCorners + Totals(a + b);
  }

  lemma OwnsConcat(a: seq<Share>, b: seq<Share>)
    ensures Owns(a + b) == Owns(a) + Owns(b)
  {
    forall i | 0 <= i < |a| + |b| ensures Owns(a + b)[i] == (Owns(a) + Owns(b))[i] {
      if i >= |a| {
        assert (a + b)[i] == b[i - |a|];
      }
    }
  }

  lemma EnemiesConcat(a: seq<Share>, b: seq<Share>)
    ensures Enemies(a + b) == Enemies(a) + Enemies(b)
  {
    forall i | 0 <= i < |a| + |b| ensures Enemies(a + b)[i] == (Enemies(a) + Enemies(b))[i] {
      if i >= |a| {
        assert (a + b)[i] == b[i - |a|];
      }
    }
  }

  lemma TotalsConcat(a: seq<Share>, b: seq<Share>)
    ensures Totals(a + b) == Totals(a) + Totals(b)
  {
    forall i | 0 <= i < |a| + |b| ensures Totals(a + b)[i] == (Totals(a) + Totals(b))[i] {
      if i >= |a| {
        assert (a + b)[i] == b[i - |a|];
      }
    }
  }

  lemma ExtendNothing(t: Team)
    ensures Extend(t, []) == t
  {
    assert Owns([]) == [] && Enemies([]) == [] && Totals([]) == [];
  }

  lemma ExtendOne(t: Team, s: Share)
    ensures Extend(t, [s]) == Record(t, s.own, s.enemy, s.total)
  {
    assert Owns([s]) == [s.own];
    assert Enemies([s]) == [s.enemy];
    assert Totals([s]) == [s.total];
  }

  /** Crediting `who` appends one share to that team and nothing to the others. */
  lemma CreditMatchesShare(r: Roster, who: string, s: Share, name: string)
    requires who in r.teams && name in r.teams
    ensures Credit(r, who, s.own, s.enemy, s.total).teams[name]
            == Extend(r.teams[name], if who == name then [s] else [])
  {
    if who == name {
      ExtendOne(r.teams[name], s);
    } else {
      ExtendNothing(r.teams[name]);
    }
  }

  /** One step appends to each team exactly what `SharesOf` says. */
  lemma StepMatchesShares(r: Roster, m: Match, stat: Option<string>, name: string)
    requires Accepts(r.teams.Keys, m, stat) && name in r.teams
    ensures Step(r, m, stat).value.teams[name]
            == Extend(r.teams[name], SharesOf(name, m, ReadingOf(stat).value))
  {
    var c := ReadingOf(stat).value;
    var home, away := Share(c.home, c.away, c.total), Share(c.away, c.home, c.total);
    var r1 := Credit(r, m.home, home.own, home.enemy, home.total);
    assert Step(r, m, stat) == Ok(Credit(r1, m.away, away.own, away.enemy, away.total));
    CreditMatchesShare(r, m.home, home, name);
    CreditMatchesShare(r1, m.away, away, name);
    ExtendTwice(r.teams[name], if m.home == name then [home] else [], if m.away == name then [away] else []);
  }

  /** The loop and the per-team reference agree: after a successful run every team
      holds its old lists followed by the shares of the matches it played, in match
      order; the table's keys and their order are unchanged. */
  lemma {:induction false} AggregateMatchesShares(r: Roster, ms: seq<Match>, stats: seq<Option<string>>)
    requires |ms| == |stats|
    requires Aggregate(r, ms, stats).Ok?
    ensures forall i :: 0 <= i < |stats| ==> HasReading(stats[i])
    ensures Aggregate(r, ms, stats).value.order == r.order
    ensures Aggregate(r, ms, stats).value.teams.Keys == r.teams.Keys
    ensures forall name :: name in r.teams ==>
      Aggregate(r, ms, stats).value.teams[name] == Extend(r.teams[name], Shares(name, ms, Readings(stats)))
    decreases |ms|
  {
    if |ms| > 0 {
      var r1 := Step(r, ms[0], stats[0]).value;
      var done := Aggregate(r, ms, stats).value;
      assert done == Aggregate(r1, ms[1..], stats[1..]).value;
      AggregateMatchesShares(r1, ms[1..], stats[1..]);
      ReadingsOfTail(stats);
      var cs := Readings(stats);
      forall name | name in r.teams
        ensures done.teams[name] == Extend(r.teams[name], Shares(name, ms, cs))
      {
        ExtendAfterStep(r, ms[0], stats[0], name, Shares(name, ms[1..], cs[1..]));
      }
    } else {
      forall name | name in r.teams ensures Extend(r.teams[name], []) == r.teams[name] {
        ExtendNothing(r.teams[name]);
      }
    }
  }

  /** The readings of a list of payloads start with the reading of the first. */
  lemma ReadingsOfTail(stats: seq<Option<string>>)
    requires |stats| > 0
    requires forall i :: 0 <= i < |stats[1..]| ==> HasReading(stats[1..][i])
    requires HasReading(stats[0])
    ensures forall i :: 0 <= i < |stats| ==> HasReading(stats[i])
    ensures Readings(stats)[0] == ReadingOf(stats[0]).value
    ensures Readings(stats)[1..] == Readings(stats[1..])
  {
    assert forall i :: 1 <= i < |stats| ==> stats[i] == stats[1..][i - 1];
  }

  /** Extending a team after one step is extending it by that step's shares first. */
  lemma ExtendAfterStep(r: Roster, m: Match, stat: Option<string>, name: string, rest: seq<Share>)
    requires Accepts(r.teams.Keys, m, stat) && name in r.teams
    ensures name in Step(r, m, stat).value.teams
    ensures Extend(Step(r, m, stat).value.teams[name], rest)
            == Extend(r.teams[name], SharesOf(name, m, ReadingOf(stat).value) + rest)
  {
    StepMatchesShares(r, m, stat, name);
    ExtendTwice(r.teams[name], SharesOf(name, m, ReadingOf(stat).value), rest);
  }

  /** The run succeeds exactly when every match can be taken; otherwise it fails
      with the error of the first match that cannot. */
  lemma {:induction false} AggregateOutcome(r: Roster, ms: seq<Match>, stats: seq<Option<string>>)
    requires |ms| == |stats|
    ensures Aggregate(r, ms, stats).Ok? <==>
      forall i :: 0 <= i < |ms| ==> Accepts(r.teams.Keys, ms[i], stats[i])
    ensures Aggregate(r, ms, stats).Err? ==> exists i ::
      && 0 <= i < |ms|
      && (forall j :: 0 <= j < i ==> Accepts(r.teams.Keys, ms[j], stats[j]))
      && !Accepts(r.teams.Keys, ms[i], stats[i])
      && Aggregate(r, ms, stats).error == FailureOf(r.teams.Keys, ms[i], stats[i])
  {
    AggregateOkIffAccepted(r, ms, stats);
    if Aggregate(r, ms, stats).Err? {
      AggregateFailsAtFirst(r, ms, stats);
    }
  }

  lemma {:induction false} AggregateOkIffAccepted(r: Roster, ms: seq<Match>, stats: seq<Option<string>>)
    requires |ms| == |stats|
    ensures Aggregate(r, ms, stats).Ok? <==>
      forall i :: 0 <= i < |ms| ==> Accepts(r.teams.Keys, ms[i], stats[i])
    decreases |ms|
  {
    if |ms| > 0 {
      AcceptedCons(r.teams.Keys, ms, stats);
      var step := Step(r, ms[0], stats[0]);
      if step.Ok? {
        var r1 := step.value;
        assert Aggregate(r, ms, stats) == Aggregate(r1, ms[1..], stats[1..]);
        AggregateOkIffAccepted(r1, ms[1..], stats[1..]);
      }
    }
  }

  /** Every match is accepted exactly when the first one is and every later one is. */
  lemma AcceptedCons(names: set<string>, ms: seq<Match>, stats: seq<Option<string>>)
    requires |ms| == |stats| > 0
    ensures (forall i :: 0 <= i < |ms| ==> Accepts(names, ms[i], stats[i])) <==>
      && Accepts(names, ms[0], stats[0])
      && forall i :: 0 <= i < |ms[1..]| ==> Accepts(names, ms[1..][i], stats[1..][i])
  {
    assert forall i :: 1 <= i < |ms| ==> ms[i] == ms[1..][i - 1] && stats[i] == stats[1..][i - 1];
  }

  lemma {:induction false} AggregateFailsAtFirst(r: Roster, ms: seq<Match>, stats: seq<Option<string>>)
    requires |ms| == |stats|
    requires Aggregate(r, ms, stats).Err?
    ensures exists i ::
      && 0 <= i < |ms|
      && (forall j :: 0 <= j < i ==> Accepts(r.teams.Keys, ms[j], stats[j]))
      && !Accepts(r.teams.Keys, ms[i], stats[i])
      && Aggregate(r, ms, stats).error == FailureOf(r.teams.Keys, ms[i], stats[i])
    decreases |ms|
  {
    var step := Step(r, ms[0], stats[0]);
    if step.Err? {
      assert !Accepts(r.teams.Keys, ms[0], stats[0]);
    } else {
      var r1 := step.value;
      assert r1.teams.Keys == r.teams.Keys;
      assert Aggregate(r, ms, stats) == Aggregate(r1, ms[1..], stats[1..]);
      AggregateFailsAtFirst(r1, ms[1..], stats[1..]);
      var i :| && 0 <= i < |ms| - 1
               && (forall j :: 0 <= j < i ==> Accepts(r.teams.Keys, ms[1..][j], stats[1..][j]))
               && !Accepts(r.teams.Keys, ms[1..][i], stats[1..][i])
               && Aggregate(r, ms, stats).error == FailureOf(r.teams.Keys, ms[1..][i], stats[1..][i]);
      assert ms[i + 1] == ms[1..][i] && stats[i + 1] == stats[1..][i];
      forall j | 0 <= j < i + 1 ensures Accepts(r.teams.Keys, ms[j], stats[j]) {
        if j > 0 {
          assert ms[j] == ms[1..][j - 1] && stats[j] == stats[1..][j - 1];
        }
      }
    }
  }

  /** A team that plays in none of the matches keeps its record. */
  lemma AggregateLeavesBystanders(r: Roster, ms: seq<Match>, stats: seq<Option<string>>, name: string)
    requires |ms| == |stats|
    requires Aggregate(r, ms, stats).Ok? && name in r.teams
    requires forall i :: 0 <= i < |ms| ==> ms[i].home != name && ms[i].away != name
    ensures name in Aggregate(r, ms, stats).value.teams
    ensures Aggregate(r, ms, stats).value.teams[name] == r.teams[name]
  {
    AggregateMatchesShares(r, ms, stats);
    var cs := Readings(stats);
    NoSharesForBystander(name, ms, cs);
    ExtendNothing(r.teams[name]);
  }

  lemma {:induction false} NoSharesForBystander(name: string, ms: seq<Match>, cs: seq<Corners>)
    requires |ms| == |cs|
    requires forall i :: 0 <= i < |ms| ==> ms[i].home != name && ms[i].away != name
    ensures Shares(name, ms, cs) == []
    decreases |ms|
  {
    if |ms| > 0 {
      NoSharesForBystander(name, ms[1..], cs[1..]);
    }
  }

  /** Every share is a reading of a match, so its counts are non-negative and its
      total is the sum of the two counts. */
  lemma {:induction false} SharesAreReadings(name: string, ms: seq<Match>, cs: seq<Corners>)
    requires |ms| == |cs|
    requires forall i :: 0 <= i < |cs| ==> cs[i].total == cs[i].home + cs[i].away
    ensures forall s :: s in Shares(name, ms, cs) ==>
      s.own >= 0 && s.enemy >= 0 && s.total == s.own + s.enemy
    decreases |ms|
  {
    if |ms| > 0 {
      SharesAreReadings(name, ms[1..], cs[1..]);
    }
  }

  /** Appending shares that are readings keeps a team's invariants and identity. */
  lemma ExtendKeepsInvariants(t: Team, sh: seq<Share>)
    requires Consistent(t) && NonNegative(t)
    requires forall s :: s in sh ==> s.own >= 0 && s.enemy >= 0 && s.total == s.own + s.enemy
    ensures Consistent(Extend(t, sh)) && NonNegative(Extend(t, sh))
    ensures Extend(t, sh).ruTitle == t.ruTitle && Extend(t, sh).title == t.title
    ensures Extend(t, sh).teamId == t.teamId
  {
    var t' := Extend(t, sh);
    var n := |t.totalCorners|;
    forall i | n <= i < |t'.totalCorners|
      ensures t'.totalCorners[i] == t'.teamCorners[i] + t'.enemyCorners[i]
      ensures t'.teamCorners[i] >= 0 && t'.enemyCorners[i] >= 0 && t'.totalCorners[i] >= 0
    {
      assert sh[i - n] in sh;
    }
  }

  /** The team invariants survive the loop: the three lists stay the same length,
      every total stays the sum of the two counts at its index, and no count is
      negative. The identity of every team is unchanged. */
  lemma AggregateKeepsInvariants(r: Roster, ms: seq<Match>, stats: seq<Option<string>>)
    requires |ms| == |stats|
    requires Aggregate(r, ms, stats).Ok?
    requires forall name :: name in r.teams ==> Consistent(r.teams[name]) && NonNegative(r.teams[name])
    ensures forall name :: name in r.teams ==>
      && name in Aggregate(r, ms, stats).value.teams
      && var t := Aggregate(r, ms, stats).value.teams[name];
      && Consistent(t) && NonNegative(t)
      && t.ruTitle == r.teams[name].ruTitle
      && t.title == r.teams[name].title
      && t.teamId == r.teams[name].teamId
  {
    AggregateMatchesShares(r, ms, stats);
    var out := Aggregate(r, ms, stats).value;
    var cs := Readings(stats);
    ReadingsAddUp(stats);
    forall name | name in r.teams
      ensures name in out.teams
      ensures Consistent(out.teams[name]) && NonNegative(out.teams[name])
      ensures out.teams[name].ruTitle == r.teams[name].ruTitle
      ensures out.teams[name].title == r.teams[name].title
      ensures out.teams[name].teamId == r.teams[name].teamId
    {
      assert out.teams[name] == Extend(r.teams[name], Shares(name, ms, cs));
      SharesAreReadings(name, ms, cs);
      ExtendKeepsInvariants(r.teams[name], Shares(name, ms, cs));
    }
  }

  /** Every reading's total is the sum of its two counts. */
  lemma ReadingsAddUp(stats: seq<Option<string>>)
    requires forall i :: 0 <= i < |stats| ==> HasReading(stats[i])
    ensures forall i :: 0 <= i < |stats| ==>
      Readings(stats)[i].total == Readings(stats)[i].home + Readings(stats)[i].away
  {
    var cs := Readings(stats);
    forall i | 0 <= i < |stats| ensures cs[i].total == cs[i].home + cs[i].away {
      assert GetCorners(stats[i].value) == Some(cs[i]);
    }
  }

  /** Running over two match lists one after the other is running over their
      concatenation (`matches += ...`). */
  lemma {:induction false} AggregateConcat(r: Roster, ms1: seq<Match>, st1: seq<Option<string>>,
                                           ms2: seq<Match>, st2: seq<Option<string>>)
    requires |ms1| == |st1| && |ms2| == |st2|
    ensures Aggregate(r, ms1 + ms2, st1 + st2) ==
      match Aggregate(r, ms1, st1)
      case Err(f) => Err(f)
      case Ok(r1) => Aggregate(r1, ms2, st2)
    decreases |ms1|
  {
    if |ms1| > 0 {
      assert (ms1 + ms2)[1..] == ms1[1..] + ms2;
      assert (st1 + st2)[1..] == st1[1..] + st2;
      match Step(r, ms1[0], st1[0])
      case Err(f) =>
      case Ok(r1) => AggregateConcat(r1, ms1[1..], st1[1..], ms2, st2);
    } else {
      assert ms1 + ms2 == ms2 && st1 + st2 == st2;
    }
  }
}

=== FILE: leagues.dfy ===
/** The team table of `src/main.py`: a Python dict from display name to `Team`.
    A dict remembers the order in which its keys were first inserted, and the
    ranking's tie order depends on it, so the model keeps that order explicitly. */
module Leagues {
  import opened Models

  /** The keys in insertion order, and the teams they map to. */
  datatype Roster = Roster(order: seq<string>, teams: map<string, Team>)

  predicate Distinct(s: seq<string>) {
    forall i, j :: 0 <= i < j < |s| ==> s[i] != s[j]
  }

  /** Every key is listed exactly once in the insertion order. */
  predicate Valid(r: Roster) {
    && Distinct(r.order)
    && (forall k :: k in r.order ==> k in r.teams)
    && (forall k :: k in r.teams ==> k in r.order)
  }

  /** Validity depends only on the keys and their order. */
  lemma SameKeysValid(r: Roster, r': Roster)
    requires Valid(r) && r'.order == r.order && r'.teams.Keys == r.teams.Keys
    ensures Valid(r')
  {
    assert forall k :: k in r'.teams <==> k in r.teams;
  }

  /** `teams.values()`: the teams in key insertion order. */
  function Values(r: Roster): (v: seq<Team>)
    requires Valid(r)
    ensures |v| == |r.order|
    ensures forall i :: 0 <= i < |v| ==> v[i] == r.teams[r.order[i]]
  {
    seq(|r.order|, i requires 0 <= i < |r.order| => r.teams[r.order[i]])
  }

  /** The keys of `keys`, in their order, that are not yet in `seen`. */
  function Unseen(keys: seq<string>, seen: map<string, Team>): (u: seq<string>)
    ensures forall k :: k in u <==> k in keys && k !in seen
    ensures Distinct(keys) ==> Distinct(u)
  {
    if |keys| == 0 then []
    else
      var rest := Unseen(keys[1..], seen);
      assert forall k :: k in keys <==> k == keys[0] || k in keys[1..];
      if keys[0] in seen then rest else [keys[0]] + rest
  }

  /** `first.update(second)`: every team of `second` is stored under its name,
      replacing a team of the same name; names new to `first` are added after
      `first`'s own names, in `second`'s order. */
  function Update(first: Roster, second: Roster): (r: Roster)
    requires Valid(first) && Valid(second)
    ensures Valid(r)
    ensures r.teams.Keys == first.teams.Keys + second.teams.Keys
    ensures forall k :: k in second.teams ==> r.teams[k] == second.teams[k]
    ensures forall k :: k in first.teams && k !in second.teams ==> r.teams[k] == first.teams[k]
    ensures |first.order| <= |r.order| && r.order[..|first.order|] == first.order
    ensures r.order[|first.order|..] == Unseen(second.order, first.teams)
  {
    var added := Unseen(second.order, first.teams);
    var order := first.order + added;
    assert Distinct(order) by {
      forall i, j | 0 <= i < j < |order| ensures order[i] != order[j] {
        if j >= |first.order| {
          assert order[j] in added;
          if i < |first.order| {
            assert order[i] in first.order;
          } else {
            assert order[i] == added[i - |first.order|];
            assert order[j] == added[j - |first.order|];
          }
        }
      }
    }
    Roster(order, first.teams + second.teams)
  }
}

=== FILE: models.dfy ===
/** The per-team record of `src/models.py`: identity, three lists of corner counts
    that grow in lock-step, and the three trailing averages used for ranking.

    An average is the mean of the first (oldest) `Window` samples, rounded to two
    decimals, or 0 for an empty list. The mean is exact; rounding is half-up to
    hundredths, see `Round2`. */
module Models {

  /** How many of the first recorded samples an average looks at. */
  const Window: nat := 10

  datatype Team = Team(
    ruTitle: string,
    title: string,
    teamId: string,
    teamCorners: seq<int>,
    enemyCorners: seq<int>,
    totalCorners: seq<int>)

  /** The three lists have the same length and every total is the sum of the team's
      and the opponent's corners of the same match. */
  predicate Consistent(t: Team) {
    && |t.teamCorners| == |t.enemyCorners| == |t.totalCorners|
    && forall i :: 0 <= i < |t.totalCorners| ==>
         t.totalCorners[i] == t.teamCorners[i] + t.enemyCorners[i]
  }

  /** No list holds a negative count. */
  predicate NonNegative(t: Team) {
    && (forall i :: 0 <= i < |t.teamCorners| ==> t.teamCorners[i] >= 0)
    && (forall i :: 0 <= i < |t.enemyCorners| ==> t.enemyCorners[i] >= 0)
    && (forall i :: 0 <= i < |t.totalCorners| ==> t.totalCorners[i] >= 0)
  }

  function Sum(s: seq<int>): int {
    if |s| == 0 then 0 else Sum(s[..|s| - 1]) + s[|s| - 1]
  }

  function Min(a: int, b: int): int {
    if a <= b then a else b
  }

  /** The samples an average is taken over: the first `Window` of them (`s[:10]`). */
  function FirstSamples(s: seq<int>): (w: seq<int>)
    ensures |w| == Min(Window, |s|)
    ensures w <= s
  {
    s[..Min(Window, |s|)]
  }

  /** The exact trailing mean (`statistics.mean(s[:10])`), and 0 for no samples. */
  function TrailingMean(s: seq<int>): (m: real)
    ensures |s| == 0 ==> m == 0.0
    ensures |s| > 0 ==> m * (|FirstSamples(s)| as real) == Sum(FirstSamples(s)) as real
  {
    if |s| == 0 then 0.0 else Sum(FirstSamples(s)) as real / (|FirstSamples(s)| as real)
  }

  /** Rounding to two decimals, half-up: a multiple of 0.01 within 0.005 of `x`. */
  function Round2(x: real): (r: real)
    ensures r - 0.005 <= x < r + 0.005
    ensures (r * 100.0).Floor as real == r * 100.0
  {
    ((x * 100.0 + 0.5).Floor as real) / 100.0
  }

  /** The value of each `avg_*` property for a list `s`: 0 without samples, else the
      mean of the first `Window` samples to within half a hundredth. */
  function Average(s: seq<int>): (a: real)
    ensures |s| == 0 ==> a == 0.0
    ensures |s| > 0 ==> a - 0.005 <= Sum(FirstSamples(s)) as real / (|FirstSamples(s)| as real) < a + 0.005
  {
    Round2(TrailingMean(s))
  }

  function AvgTeamCorners(t: Team): real {
    Average(t.teamCorners)
  }

  function AvgEnemyCorners(t: Team): real {
    Average(t.enemyCorners)
  }

  function AvgTotalCorners(t: Team): real {
    Average(t.totalCorners)
  }

  /** `Team(ru_title, title, team_id)`: the identity as given and no samples yet. */
  function NewTeam(ruTitle: string, title: string, teamId: string): (t: Team)
    ensures t.ruTitle == ruTitle && t.title == title && t.teamId == teamId
    ensures Consistent(t) && NonNegative(t) && |t.totalCorners| == 0
    ensures AvgTeamCorners(t) == 0.0 && AvgEnemyCorners(t) == 0.0 && AvgTotalCorners(t) == 0.0
  {
    Team(ruTitle, title, teamId, [], [], [])
  }

  /** Appends one match's counts: the team's own corners, the opponent's and the total. */
  function Record(t: Team, own: int, enemy: int, total: int): (t': Team)
    ensures t'.ruTitle == t.ruTitle && t'.title == t.title && t'.teamId == t.teamId
    ensures t'.teamCorners == t.teamCorners + [own]
    ensures t'.enemyCorners == t.enemyCorners + [enemy]
    ensures t'.totalCorners == t.totalCorners + [total]
    ensures Consistent(t) && total == own + enemy ==> Consistent(t')
    ensures NonNegative(t) && own >= 0 && enemy >= 0 && total >= 0 ==> NonNegative(t')
  {
    t.(teamCorners := t.teamCorners + [own],
       enemyCorners := t.enemyCorners + [enemy],
       totalCorners := t.totalCorners + [total])
  }

  // ---------------------------------------------------------------------------
  // Properties of the averages
  // ---------------------------------------------------------------------------

  /** Every average of a team without samples is 0. */
  lemma EmptyAveragesAreZero(t: Team)
    requires |t.teamCorners| == 0 && |t.enemyCorners| == 0 && |t.totalCorners| == 0
    ensures AvgTeamCorners(t) == 0.0 && AvgEnemyCorners(t) == 0.0 && AvgTotalCorners(t) == 0.0
  {
  }

  /** For a non-empty list, the average is the rounded sum of the first
      `min(10, |s|)` samples divided by their number. */
  lemma AverageOfFirstSamples(s: seq<int>)
    requires |s| > 0
    ensures var k := Min(Window, |s|);
      Average(s) == Round2(Sum(s[..k]) as real / k as real)
  {
  }

  /** Only the first `Window` samples matter: appending to a full window changes
      no average. */
  lemma AverageIgnoresLaterSamples(s: seq<int>, more: seq<int>)
    requires |s| >= Window
    ensures Average(s + more) == Average(s)
  {
    assert FirstSamples(s + more) == FirstSamples(s);
  }

  /** The three averages read three different lists: appending to one list leaves
      the other two averages as they were. */
  lemma AveragesAreIndependent(t: Team, x: int)
    ensures AvgEnemyCorners(t.(teamCorners := t.teamCorners + [x])) == AvgEnemyCorners(t)
    ensures AvgTotalCorners(t.(teamCorners := t.teamCorners + [x])) == AvgTotalCorners(t)
    ensures AvgTeamCorners(t.(enemyCorners := t.enemyCorners + [x])) == AvgTeamCorners(t)
    ensures AvgTotalCorners(t.(enemyCorners := t.enemyCorners + [x])) == AvgTotalCorners(t)
    ensures AvgTeamCorners(t.(totalCorners := t.totalCorners + [x])) == AvgTeamCorners(t)
    ensures AvgEnemyCorners(t.(totalCorners := t.totalCorners + [x])) == AvgEnemyCorners(t)
  {
  }

  /** Smallest element of a non-empty list. */
  function SeqMin(s: seq<int>): (m: int)
    requires |s| > 0
    ensures m in s
    ensures forall i :: 0 <= i < |s| ==> m <= s[i]
  {
    if |s| == 1 then s[0] else Min(SeqMin(s[..|s| - 1]), s[|s| - 1])
  }

  /** Largest element of a non-empty list. */
  function SeqMax(s: seq<int>): (m: int)
    requires |s| > 0
    ensures m in s
    ensures forall i :: 0 <= i < |s| ==> s[i] <= m
  {
    if |s| == 1 then s[0]
    else var m := SeqMax(s[..|s| - 1]); if m >= s[|s| - 1] then m else s[|s| - 1]
  }

  /** A sum of `|s|` values between `lo` and `hi` lies between `|s| * lo` and `|s| * hi`. */
  lemma {:induction false} SumBounds(s: seq<int>, lo: int, hi: int)
    requires forall i :: 0 <= i < |s| ==> lo <= s[i] <= hi
    ensures |s| * lo <= Sum(s) <= |s| * hi
  {
    if |s| > 0 {
      var init, n := s[..|s| - 1], |s| - 1;
      assert forall i :: 0 <= i < |init| ==> init[i] == s[i];
      SumBounds(init, lo, hi);
      assert n * lo + lo == |s| * lo && n * hi + hi == |s| * hi;
    }
  }

  /** Dividing both sides of an inequality by the same positive number keeps it. */
  lemma CancelPositive(a: real, b: real, n: real)
    requires n > 0.0 && a * n <= b * n
    ensures a <= b
  {
    assert (b - a) * n == b * n - a * n;
  }

  /** Converting a product to a real is the product of the conversions. */
  lemma {:induction false} CastProduct(a: int, n: nat)
    ensures (n * a) as real == (a as real) * (n as real)
  {
    if n > 0 {
      CastProduct(a, n - 1);
      assert n * a == (n - 1) * a + a;
      assert (a as real) * (n as real) == (a as real) * ((n - 1) as real) + a as real;
    }
  }

  /** A mean of values between `lo` and `hi` is between `lo` and `hi`. */
  lemma MeanBounds(total: int, n: nat, m: real, lo: int, hi: int)
    requires n > 0 && m * (n as real) == total as real
    requires n * lo <= total <= n * hi
    ensures lo as real <= m <= hi as real
  {
    CastProduct(lo, n);
    CastProduct(hi, n);
    CancelPositive(lo as real, m, n as real);
    CancelPositive(m, hi as real, n as real);
  }

  /** The exact mean lies between the smallest and the largest of the samples it
      is taken over. */
  lemma TrailingMeanBounds(s: seq<int>)
    requires |s| > 0
    ensures SeqMin(FirstSamples(s)) as real <= TrailingMean(s) <= SeqMax(FirstSamples(s)) as real
  {
    SampleMeanBounds(FirstSamples(s), TrailingMean(s));
  }

  /** The same for any list `w` and any `m` with `m * |w| == Sum(w)`. */
  lemma SampleMeanBounds(w: seq<int>, m: real)
    requires |w| > 0 && m * (|w| as real) == Sum(w) as real
    ensures SeqMin(w) as real <= m <= SeqMax(w) as real
  {
    SumBounds(w, SeqMin(w), SeqMax(w));
    MeanBounds(Sum(w), |w|, m, SeqMin(w), SeqMax(w));
  }

  /** Rounding to hundredths keeps a value between two integers between them. */
  lemma RoundKeepsIntegerBounds(x: real, lo: int, hi: int)
    requires lo as real <= x <= hi as real
    ensures lo as real <= Round2(x) <= hi as real
  {
    var y := x * 100.0 + 0.5;
    var f := y.Floor;
    assert f as real <= y < f as real + 1.0;
    assert (lo * 100) as real <= y;
    assert lo * 100 <= f;
    assert y < (hi * 100 + 1) as real;
    assert f <= hi * 100;
    assert Round2(x) == f as real / 100.0;
  }

  /** The rounded average lies between the smallest and the largest of the first
      samples, so a list of non-negative counts has a non-negative average. */
  lemma AverageBounds(s: seq<int>)
    requires |s| > 0
    ensures SeqMin(FirstSamples(s)) as real <= Average(s) <= SeqMax(FirstSamples(s)) as real
    ensures (forall i :: 0 <= i < |s| ==> s[i] >= 0) ==> Average(s) >= 0.0
  {
    TrailingMeanBounds(s);
    RoundKeepsIntegerBounds(TrailingMean(s), SeqMin(FirstSamples(s)), SeqMax(FirstSamples(s)));
    assert SeqMin(FirstSamples(s)) in s;
  }
}

=== FILE: outcomes.dfy ===
/** Runs over small inputs that show what the pipeline does on a failed fetch and
    on equal averages, for any tables. */
module Outcomes {
  import opened Results
  import opened Utils
  import opened Models
  import opened Leagues
  import opened Aggregation
  import opened Ranking
  import opened Pipeline

  /** When the first match can be taken and the fetch for the second returned
      nothing, the run stops at the second match instead of skipping it. */
  lemma MissingPayloadStopsTheRun(laliga: Roster, apl: Roster, m1: Match, m2: Match, payload: string)
    requires Valid(laliga) && Valid(apl)
    requires Accepts(laliga.teams.Keys + apl.teams.Keys, m1, Some(payload))
    ensures Run(laliga, apl, [m1], [m2], [Some(payload), None]) == Err(NoStats(m2.id))
  {
    MergedTableAccepts(laliga, apl, m1, Some(payload));
    MissingPayloadStopsTheLoop(Teams(laliga, apl), m1, m2, Some(payload));
    RunStopsWhereTheLoopStops(laliga, apl, [m1], [m2], [Some(payload), None]);
  }

  lemma MergedTableAccepts(laliga: Roster, apl: Roster, m: Match, stat: Option<string>)
    requires Valid(laliga) && Valid(apl)
    requires Accepts(laliga.teams.Keys + apl.teams.Keys, m, stat)
    ensures Accepts(Teams(laliga, apl).teams.Keys, m, stat)
  {
  }

  /** The loop over a table that takes the first match stops at a second match
      without a payload. */
  lemma MissingPayloadStopsTheLoop(teams: Roster, m1: Match, m2: Match, stat: Option<string>)
    requires Accepts(teams.teams.Keys, m1, stat)
    ensures Aggregate(teams, [m1] + [m2], [stat, None]) == Err(NoStats(m2.id))
  {
    assert [m1] + [m2] == [m1, m2];
    LoopOfTwo(teams, m1, m2, stat, None);
    NothingToRead(Step(teams, m1, stat).value, m2);
  }

  /** The loop over two matches is the first step followed by the loop over the second. */
  lemma LoopOfTwo(teams: Roster, m1: Match, m2: Match, s1: Option<string>, s2: Option<string>)
    ensures Aggregate(teams, [m1, m2], [s1, s2]) ==
      match Step(teams, m1, s1)
      case Err(f) => Err(f)
      case Ok(r1) => Aggregate(r1, [m2], [s2])
  {
    assert [m1, m2][1..] == [m2] && [s1, s2][1..] == [s2];
  }

  /** A match without a payload stops the loop. */
  lemma NothingToRead(r: Roster, m: Match)
    ensures Aggregate(r, [m], [None]) == Err(NoStats(m.id))
  {
    assert Step(r, m, None) == Err(NoStats(m.id));
  }

  // ---------------------------------------------------------------------------
  // Equal averages keep the table order
  // ---------------------------------------------------------------------------

  /** A club as the table scraper creates it: no samples yet. */
  function Blank(name: string): Team {
    NewTeam(name, name, name)
  }

  /** A single total of 9 averages to 9, and no totals average to 0. */
  lemma NineAverage()
    ensures Average([9]) == 9.0 && Average([]) == 0.0
  {
    assert FirstSamples([9]) == [9];
    assert Sum([9]) == 9 by {
      assert [9][..0] == [];
    }
    assert TrailingMean([9]) == 9.0;
    assert (9.0 * 100.0 + 0.5).Floor == 900;
  }

  /** Two teams averaging 9 followed by one averaging 0 are already ranked. */
  lemma TieStaysInPlace(x: Team, y: Team, z: Team)
    requires Key(x) == 9.0 && Key(y) == 9.0 && Key(z) == 0.0
    ensures Rank([x, y, z]) == [x, y, z]
  {
    assert [x, y, z][1..] == [y, z] && [y, z][1..] == [z];
    assert Rank([z]) == [z];
    assert Rank([y, z]) == [y, z];
  }

  /** The first match credits its two clubs and leaves the third alone. */
  lemma FirstMatchStep(teams: Roster, g: string, b: string, a: string, payload: string)
    requires Valid(teams) && teams.order == [g, b, a]
    requires g in teams.teams && b in teams.teams && a in teams.teams
    requires teams.teams[g] == Blank(g) && teams.teams[b] == Blank(b) && teams.teams[a] == Blank(a)
    requires GetCorners(payload) == Some(Corners(4, 5, 9))
    ensures Step(teams, Match("m1", g, b), Some(payload)).Ok?
    ensures var r := Step(teams, Match("m1", g, b), Some(payload)).value;
      && r.teams[g] == Record(Blank(g), 4, 5, 9)
      && r.teams[b] == Record(Blank(b), 5, 4, 9)
      && r.teams[a] == Blank(a)
  {
    assert teams.order[0] == g && teams.order[1] == b && teams.order[2] == a;
    assert g != b && b != a && g != a;
    StepCredits(teams, Match("m1", g, b), Some(payload));
  }

  lemma FirstMatchOnly(teams: Roster, g: string, b: string, a: string, payload: string)
    requires Valid(teams) && teams.order == [g, b, a]
    requires g in teams.teams && b in teams.teams && a in teams.teams
    requires teams.teams[g] == Blank(g) && teams.teams[b] == Blank(b) && teams.teams[a] == Blank(a)
    requires GetCorners(payload) == Some(Corners(4, 5, 9))
    ensures Aggregate(teams, [Match("m1", g, b)], [Some(payload)]).Ok?
    ensures var r := Aggregate(teams, [Match("m1", g, b)], [Some(payload)]).value;
      && Valid(r) && r.order == [g, b, a]
      && r.teams[g] == Record(Blank(g), 4, 5, 9)
      && r.teams[b] == Record(Blank(b), 5, 4, 9)
      && r.teams[a] == Blank(a)
  {
    FirstMatchStep(teams, g, b, a, payload);
    var r1 := Step(teams, Match("m1", g, b), Some(payload)).value;
    assert Aggregate(r1, [], []) == Ok(r1);
  }

  lemma ThreeValues(r: Roster, g: string, b: string, a: string)
    requires Valid(r) && r.order == [g, b, a]
    ensures Values(r) == [r.teams[g], r.teams[b], r.teams[a]]
  {
  }

  /** Whatever the tables, when the merged table lists clubs `g`, `b`, `a` in that
      order without samples and only `g` hosting `b` is played, `g` and `b` both
      average 9 and keep their table order at the top, and `a` comes last. */
  lemma TieKeepsMergedOrder(laliga: Roster, apl: Roster, g: string, b: string, a: string, payload: string)
    requires Valid(laliga) && Valid(apl)
    requires Teams(laliga, apl).order == [g, b, a]
    requires g in Teams(laliga, apl).teams && b in Teams(laliga, apl).teams && a in Teams(laliga, apl).teams
    requires Teams(laliga, apl).teams[g] == Blank(g)
    requires Teams(laliga, apl).teams[b] == Blank(b)
    requires Teams(laliga, apl).teams[a] == Blank(a)
    requires GetCorners(payload) == Some(Corners(4, 5, 9))
    ensures Run(laliga, apl, [Match("m1", g, b)], [], [Some(payload)])
            == Ok([Record(Blank(g), 4, 5, 9), Record(Blank(b), 5, 4, 9), Blank(a)])
  {
    var teams := Teams(laliga, apl);
    NothingAppended([Match("m1", g, b)]);
    FirstMatchOnly(teams, g, b, a, payload);
    var r1 := Aggregate(teams, [Match("m1", g, b)], [Some(payload)]).value;
    RunRanksWhatTheLoopGives(laliga, apl, [Match("m1", g, b)], [], [Some(payload)]);
    RankAfterFirstMatch(r1, g, b, a);
  }

  lemma NothingAppended(ms: seq<Match>)
    ensures ms + [] == ms
  {
  }

  /** The table after the first match ranks as it is listed. */
  lemma RankAfterFirstMatch(r: Roster, g: string, b: string, a: string)
    requires Valid(r) && r.order == [g, b, a]
    requires r.teams[g] == Record(Blank(g), 4, 5, 9)
    requires r.teams[b] == Record(Blank(b), 5, 4, 9)
    requires r.teams[a] == Blank(a)
    ensures Rank(Values(r)) == [Record(Blank(g), 4, 5, 9), Record(Blank(b), 5, 4, 9), Blank(a)]
  {
    ThreeValues(r, g, b, a);
    NineAverage();
    TieStaysInPlace(r.teams[g], r.teams[b], r.teams[a]);
  }
}

=== FILE: pipeline.dfy ===
/** The data flow of `pipeline()` in `src/main.py`, without the scraping and the
    CSV file: the two league tables are merged, the two match lists are
    concatenated, every match is credited in order, and the teams are ranked by
    average total corners.

    The tables, the match lists and the payload of every match are inputs: they
    come from the browser and HTTP code of `src/parser.py`, which is not part of
    this model. `stats[i]` is what `get_stat` returned for the `i`-th match of the
    concatenated list. */
module Pipeline {
  import opened Results
  import opened Utils
  import opened Models
  import opened Leagues
  import opened Aggregation
  import opened Ranking

  /** The table after `teams.update(...)` (lines 19-20). */
  function Teams(laliga: Roster, apl: Roster): (r: Roster)
    requires Valid(laliga) && Valid(apl)
    ensures Valid(r)
    ensures r.teams.Keys == laliga.teams.Keys + apl.teams.Keys
  {
    Update(laliga, apl)
  }

  /** The whole run: `Ok` with the ranked teams, or the error that stops it. */
  function Run(laliga: Roster, apl: Roster, ms1: seq<Match>, ms2: seq<Match>,
               stats: seq<Option<string>>): (res: Result<seq<Team>, Failure>)
    requires Valid(laliga) && Valid(apl)
    requires |stats| == |ms1| + |ms2|
    ensures res.Ok? ==> |res.value| == |Teams(laliga, apl).order| && Descending(res.value)
    ensures res.Ok? ==>
      && Aggregate(Teams(laliga, apl), ms1 + ms2, stats).Ok?
      && Valid(Aggregate(Teams(laliga, apl), ms1 + ms2, stats).value)
      && multiset(res.value) == multiset(Values(Aggregate(Teams(laliga, apl), ms1 + ms2, stats).value))
  {
    var teams := Teams(laliga, apl);
    match Aggregate(teams, ms1 + ms2, stats)
    case Err(f) => Err(f)
    case Ok(done) =>
      Ok(Rank(Values(done)))
  }

  /** A loop that stops with an error stops the run with the same error. */
  lemma RunStopsWhereTheLoopStops(laliga: Roster, apl: Roster, ms1: seq<Match>, ms2: seq<Match>,
                                  stats: seq<Option<string>>)
    requires Valid(laliga) && Valid(apl) && |stats| == |ms1| + |ms2|
    ensures Aggregate(Teams(laliga, apl), ms1 + ms2, stats).Err? ==>
      Run(laliga, apl, ms1, ms2, stats) == Err(Aggregate(Teams(laliga, apl), ms1 + ms2, stats).error)
  {
  }

  /** A loop that finishes gives a valid table, and the run ranks its teams. */
  lemma RunRanksWhatTheLoopGives(laliga: Roster, apl: Roster, ms1: seq<Match>, ms2: seq<Match>,
                                 stats: seq<Option<string>>)
    requires Valid(laliga) && Valid(apl) && |stats| == |ms1| + |ms2|
    ensures Aggregate(Teams(laliga, apl), ms1 + ms2, stats).Ok? ==>
      var done := Aggregate(Teams(laliga, apl), ms1 + ms2, stats).value;
      Valid(done) && Run(laliga, apl, ms1, ms2, stats) == Ok(Rank(Values(done)))
  {
    var teams := Teams(laliga, apl);
    var res := Aggregate(teams, ms1 + ms2, stats);
    if res.Ok? {
      SameKeysValid(teams, res.value);
    }
  }

  /** Each team of `teams`, in table order, with the shares of the matches it
      played appended to its lists: what the loop is meant to produce. */
  function Expected(teams: Roster, ms: seq<Match>, cs: seq<Corners>): (v: seq<Team>)
    requires Valid(teams) && |ms| == |cs|
    ensures |v| == |teams.order|
    ensures forall i :: 0 <= i < |v| ==>
      v[i] == Extend(teams.teams[teams.order[i]], Shares(teams.order[i], ms, cs))
  {
    seq(|teams.order|, i requires 0 <= i < |teams.order| =>
      Extend(teams.teams[teams.order[i]], Shares(teams.order[i], ms, cs)))
  }

  /** The run succeeds exactly when every match of the first list and then of the
      second can be taken by the merged table. */
  lemma RunSucceedsIffAllAccepted(laliga: Roster, apl: Roster, ms1: seq<Match>, ms2: seq<Match>,
                                  stats: seq<Option<string>>)
    requires Valid(laliga) && Valid(apl)
    requires |stats| == |ms1| + |ms2|
    ensures Run(laliga, apl, ms1, ms2, stats).Ok? <==>
      forall i :: 0 <= i < |ms1| + |ms2| ==>
        Accepts(laliga.teams.Keys + apl.teams.Keys, (ms1 + ms2)[i], stats[i])
  {
    var teams := Teams(laliga, apl);
    AggregateOutcome(teams, ms1 + ms2, stats);
  }

  /** A failed run stops with the error of the first match the merged table cannot
      take. */
  lemma RunFailsAtFirstRejected(laliga: Roster, apl: Roster, ms1: seq<Match>, ms2: seq<Match>,
                                stats: seq<Option<string>>)
    requires Valid(laliga) && Valid(apl)
    requires |stats| == |ms1| + |ms2|
    requires Run(laliga, apl, ms1, ms2, stats).Err?
    ensures exists i ::
      && 0 <= i < |ms1| + |ms2|
      && (forall j :: 0 <= j < i ==> Accepts(laliga.teams.Keys + apl.teams.Keys, (ms1 + ms2)[j], stats[j]))
      && !Accepts(laliga.teams.Keys + apl.teams.Keys, (ms1 + ms2)[i], stats[i])
      && Run(laliga, apl, ms1, ms2, stats).error
         == FailureOf(laliga.teams.Keys + apl.teams.Keys, (ms1 + ms2)[i], stats[i])
  {
    var teams := Teams(laliga, apl);
    AggregateOutcome(teams, ms1 + ms2, stats);
  }

  /** On success the output holds each team of the merged table once, in
      descending order of average total corners, with teams of equal average in the
      table's insertion order; each team holds its merged record followed by the
      shares of the matches it played, in match order. */
  lemma RunRanksTheAggregate(laliga: Roster, apl: Roster, ms1: seq<Match>, ms2: seq<Match>,
                             stats: seq<Option<string>>)
    requires Valid(laliga) && Valid(apl)
    requires |stats| == |ms1| + |ms2|
    ensures Run(laliga, apl, ms1, ms2, stats).Ok? ==>
      && (forall i :: 0 <= i < |stats| ==> HasReading(stats[i]))
      && var ranked := Run(laliga, apl, ms1, ms2, stats).value;
         var expected := Expected(Teams(laliga, apl), ms1 + ms2, Readings(stats));
         && Descending(ranked)
         && multiset(ranked) == multiset(expected)
         && forall k :: WithKey(ranked, k) == WithKey(expected, k)
  {
    var teams := Teams(laliga, apl);
    var ms := ms1 + ms2;
    if Aggregate(teams, ms, stats).Ok? {
      ValuesOfAggregate(teams, ms, stats);
      var expected := Expected(teams, ms, Readings(stats));
      forall k ensures WithKey(Rank(expected), k) == WithKey(expected, k) {
        RankIsStable(expected, k);
      }
    }
  }

  /** After a successful loop, the table's values are the expected teams. */
  lemma ValuesOfAggregate(teams: Roster, ms: seq<Match>, stats: seq<Option<string>>)
    requires Valid(teams) && |ms| == |stats|
    requires Aggregate(teams, ms, stats).Ok?
    ensures forall i :: 0 <= i < |stats| ==> HasReading(stats[i])
    ensures Valid(Aggregate(teams, ms, stats).value)
    ensures Values(Aggregate(teams, ms, stats).value) == Expected(teams, ms, Readings(stats))
  {
    AggregateMatchesShares(teams, ms, stats);
    var done := Aggregate(teams, ms, stats).value;
    var v := Values(done);
    var e := Expected(teams, ms, Readings(stats));
    forall i | 0 <= i < |v| ensures v[i] == e[i] {
      assert teams.order[i] in teams.teams;
    }
  }
}

=== FILE: ranking.dfy ===
/** The ranking of `src/main.py` (lines 43-45): `sorted(teams.values(),
    key=avg_total_corners, reverse=True)`.

    Python's sort is stable, and `reverse=True` keeps equal elements in their
    original order. So the ranking is the unique ordering that is descending by
    the key and keeps, for every key value, the teams with that key in the order
    they had before. `Rank` is an insertion sort that computes it; `WithKey` is the
    per-key view the stability statement is written in. */
module Ranking {
  import opened Models

  /** The sort key: the rounded average of the first ten totals. */
  function Key(t: Team): real {
    AvgTotalCorners(t)
  }

  /** Larger keys come first. */
  predicate Descending(s: seq<Team>) {
    forall i, j :: 0 <= i < j < |s| ==> Key(s[i]) >= Key(s[j])
  }

  /** The teams of `s` whose key is `k`, in their order in `s`. */
  function WithKey(s: seq<Team>, k: real): (w: seq<Team>)
    ensures forall x :: x in w <==> x in s && Key(x) == k
  {
    if |s| == 0 then []
    else
      assert forall x :: x in s <==> x == s[0] || x in s[1..];
      (if Key(s[0]) == k then [s[0]] else []) + WithKey(s[1..], k)
  }

  /** Places `t` before the first team whose key is not larger than its own. */
  function Insert(t: Team, s: seq<Team>): (r: seq<Team>)
    ensures |r| == |s| + 1
    ensures multiset(r) == multiset(s) + multiset{t}
  {
    if |s| == 0 then [t]
    else if Key(t) >= Key(s[0]) then
      assert s == [s[0]] + s[1..];
      [t] + s
    else
      assert s == [s[0]] + s[1..];
      [s[0]] + Insert(t, s[1..])
  }

  /** Inserting into a descending list keeps it descending. */
  lemma {:induction false} InsertKeepsDescending(t: Team, s: seq<Team>)
    requires Descending(s)
    ensures Descending(Insert(t, s))
  {
    if |s| > 0 && Key(t) < Key(s[0]) {
      var rest := Insert(t, s[1..]);
      InsertKeepsDescending(t, s[1..]);
      var r := [s[0]] + rest;
      assert r[1..] == rest;
      forall j | 1 <= j < |r| ensures Key(r[0]) >= Key(r[j]) {
        assert r[j] in multiset(rest);
        assert r[j] == t || r[j] in s[1..];
      }
    }
  }

  /** The per-key view of a list with a known head. */
  lemma WithKeyCons(x: Team, rest: seq<Team>, k: real)
    ensures WithKey([x] + rest, k) == (if Key(x) == k then [x] else []) + WithKey(rest, k)
  {
    assert ([x] + rest)[0] == x && ([x] + rest)[1..] == rest;
  }

  /** Inserting `t` puts it in front of every team with the same key and moves no
      other team relative to the rest. */
  lemma {:induction false} InsertKeepsKeyOrder(t: Team, s: seq<Team>, k: real)
    ensures WithKey(Insert(t, s), k) == (if Key(t) == k then [t] else []) + WithKey(s, k)
  {
    if |s| == 0 {
      WithKeyCons(t, [], k);
    } else if Key(t) >= Key(s[0]) {
      WithKeyCons(t, s, k);
    } else {
      var rest := Insert(t, s[1..]);
      InsertKeepsKeyOrder(t, s[1..], k);
      WithKeyCons(s[0], rest, k);
      WithKeyCons(s[0], s[1..], k);
      assert s == [s[0]] + s[1..];
      var w := WithKey(s[1..], k);
      if Key(t) == k {
        assert WithKey(Insert(t, s), k) == [t] + w;
        assert WithKey(s, k) == w;
      } else {
        assert WithKey(rest, k) == w;
      }
    }
  }

  /** The ranking: a stable sort by descending key. */
  function Rank(s: seq<Team>): (r: seq<Team>)
    ensures |r| == |s|
    ensures multiset(r) == multiset(s)
    ensures Descending(r)
  {
    if |s| == 0 then []
    else
      assert s == [s[0]] + s[1..];
      var rest := Rank(s[1..]);
      InsertKeepsDescending(s[0], rest);
      Insert(s[0], rest)
  }

  /** Stability: among teams with the same key the ranking keeps the input order. */
  lemma {:induction false} RankIsStable(s: seq<Team>, k: real)
    ensures WithKey(Rank(s), k) == WithKey(s, k)
  {
    if |s| > 0 {
      RankIsStable(s[1..], k);
      InsertKeepsKeyOrder(s[0], Rank(s[1..]), k);
    }
  }

  /** Two descending lists with the same teams under every key have the same length
      class: one is empty exactly when the other is. */
  lemma SameKeysSameEmptiness(a: seq<Team>, b: seq<Team>)
    requires forall k :: WithKey(a, k) == WithKey(b, k)
    ensures |a| == 0 <==> |b| == 0
  {
    if |b| > 0 {
      assert b[0] in WithKey(b, Key(b[0]));
      assert b[0] in WithKey(a, Key(b[0]));
    }
    if |a| > 0 {
      assert a[0] in WithKey(a, Key(a[0]));
      assert a[0] in WithKey(b, Key(a[0]));
    }
  }

  /** In a descending list the head's key is the largest one. */
  lemma HeadIsLargest(s: seq<Team>, x: Team)
    requires Descending(s) && x in s
    ensures Key(x) <= Key(s[0])
  {
    var i :| 0 <= i < |s| && s[i] == x;
    if i > 0 {
      assert Key(s[0]) >= Key(s[i]);
    }
  }

  /** A descending list is fixed by its per-key views. */
  lemma {:induction false} DescendingIsDeterminedByKeys(a: seq<Team>, b: seq<Team>)
    requires Descending(a) && Descending(b)
    requires forall k :: WithKey(a, k) == WithKey(b, k)
    ensures a == b
    decreases |a|
  {
    SameKeysSameEmptiness(a, b);
    if |a| > 0 {
      var ka, kb := Key(a[0]), Key(b[0]);
      assert a[0] in WithKey(a, ka);
      assert a[0] in WithKey(b, ka);
      HeadIsLargest(b, a[0]);
      assert b[0] in WithKey(b, kb);
      assert b[0] in WithKey(a, kb);
      HeadIsLargest(a, b[0]);
      assert ka == kb;
      assert WithKey(a, ka)[0] == a[0];
      assert WithKey(b, ka)[0] == b[0];
      assert a[0] == b[0];
      forall k ensures WithKey(a[1..], k) == WithKey(b[1..], k) {
        var wa, wb := WithKey(a, k), WithKey(b, k);
        assert wa == (if ka == k then [a[0]] else []) + WithKey(a[1..], k);
        assert wb == (if ka == k then [b[0]] else []) + WithKey(b[1..], k);
        assert WithKey(a[1..], k) == if ka == k then wa[1..] else wa;
        assert WithKey(b[1..], k) == if ka == k then wb[1..] else wb;
      }
      DescendingIsDeterminedByKeys(a[1..], b[1..]);
      assert a == [a[0]] + a[1..] && b == [b[0]] + b[1..];
    }
  }

  /** `Rank` is the stable descending sort: any descending arrangement that keeps
      the input order among equal keys is exactly `Rank(s)`. */
  lemma RankIsTheStableSort(s: seq<Team>, p: seq<Team>)
    requires Descending(p)
    requires forall k :: WithKey(p, k) == WithKey(s, k)
    ensures p == Rank(s)
  {
    forall k ensures WithKey(p, k) == WithKey(Rank(s), k) {
      RankIsStable(s, k);
    }
    DescendingIsDeterminedByKeys(p, Rank(s));
  }
}

=== FILE: results.dfy ===
/** Optional values and fallible results. The scraper signals "nothing found" with
    Python's `None` and aborts on errors with exceptions; the model makes both explicit. */
module Results {

  /** A value that may be absent (Python's `None`). */
  datatype Option<+T> = None | Some(value: T)

  /** The outcome of a step that may abort the run with an error. */
  datatype Result<+T, +E> = Ok(value: T) | Err(error: E)
}

=== FILE: scenarios.dfy ===
/** Two small runs. Three clubs are credited from one or two matches: the first
    two clubs are listed, in that order, before the third in the merged table, and
    the first match has 4 home and 5 away corners. */
module Scenarios {
  import opened Results
  import opened Text
  import opened Utils
  import opened Models
  import opened Leagues
  import opened Aggregation
  import opened Pipeline
  import opened Outcomes

  function Table(): Roster {
    Roster(["Girona", "Betis"], map["Girona" := Blank("Girona"), "Betis" := Blank("Betis")])
  }

  function SecondTable(): Roster {
    Roster(["Arsenal"], map["Arsenal" := Blank("Arsenal")])
  }

  const Payload: string := "Угловые¬SH÷4¬SI÷5"

  /** The payload's only marker reads 4 home and 5 away corners. */
  lemma PayloadReadsFourAndFive()
    ensures GetCorners(Payload) == Some(Corners(4, 5, 9))
  {
    assert !HasMarker("");
    assert Decimal(4) == "4" && Decimal(5) == "5";
    CornersRoundTrip("", 4, 5, "");
    assert "" + CornersLabel + "4" + AwayLabel + "5" + "" == Payload;
  }

  lemma TablesAreValid()
    ensures Valid(Table()) && Valid(SecondTable())
  {
  }

  /** Girona hosts Betis with the payload above, and the fetch for Girona against
      Arsenal fails: the run ends with that match's error and ranks nobody. */
  lemma FailedFetchAbortsTheRanking()
    ensures Run(Table(), SecondTable(), [Match("m1", "Girona", "Betis")],
                [Match("m2", "Girona", "Arsenal")], [Some(Payload), None])
            == Err(NoStats("m2"))
  {
    TablesAreValid();
    PayloadReadsFourAndFive();
    assert "Girona" in Table().teams.Keys && "Betis" in Table().teams.Keys;
    MissingPayloadStopsTheRun(Table(), SecondTable(), Match("m1", "Girona", "Betis"),
                              Match("m2", "Girona", "Arsenal"), Payload);
  }

  /** The merged table lists Girona, Betis, Arsenal, each without samples. */
  lemma MergedTable()
    ensures Valid(Table()) && Valid(SecondTable())
    ensures var m := Teams(Table(), SecondTable());
      && m.order == ["Girona", "Betis", "Arsenal"]
      && "Girona" in m.teams && m.teams["Girona"] == Blank("Girona")
      && "Betis" in m.teams && m.teams["Betis"] == Blank("Betis")
      && "Arsenal" in m.teams && m.teams["Arsenal"] == Blank("Arsenal")
  {
    TablesAreValid();
    MergedOrder();
  }

  lemma MergedOrder()
    ensures Valid(Table()) && Valid(SecondTable())
    ensures Teams(Table(), SecondTable()).order == ["Girona", "Betis", "Arsenal"]
  {
    TablesAreValid();
    ArsenalIsNew();
    assert Teams(Table(), SecondTable()).order == ["Girona", "Betis"] + ["Arsenal"];
    ThreeClubs();
  }

  lemma ArsenalIsNew()
    ensures Unseen(["Arsenal"], Table().teams) == ["Arsenal"]
  {
    assert ["Arsenal"][1..] == [];
  }

  lemma ThreeClubs()
    ensures ["Girona", "Betis"] + ["Arsenal"] == ["Girona", "Betis", "Arsenal"]
  {
  }

  /** Girona hosts Betis with the payload above: both end with a total of 9 and an
      average of 9, and Girona ranks first because the table lists it first. */
  lemma TieKeepsTableOrder()
    ensures Run(Table(), SecondTable(), [Match("m1", "Girona", "Betis")], [], [Some(Payload)])
            == Ok([Record(Blank("Girona"), 4, 5, 9), Record(Blank("Betis"), 5, 4, 9), Blank("Arsenal")])
  {
    MergedTable();
    PayloadReadsFourAndFive();
    TieKeepsMergedOrder(Table(), SecondTable(), "Girona", "Betis", "Arsenal", Payload);
  }
}

=== FILE: text.dfy ===
/** Character classes and decimal numerals over ASCII, as used by the two
    regular expressions of the scraper (`\d` and `[A-Za-z0-9]`). */
module Text {

  predicate IsDigit(c: char) {
    '0' <= c <= '9'
  }

  predicate IsAlnum(c: char) {
    IsDigit(c) || 'A' <= c <= 'Z' || 'a' <= c <= 'z'
  }

  predicate AllDigits(s: string) {
    forall i :: 0 <= i < |s| ==> IsDigit(s[i])
  }

  predicate AllAlnum(s: string) {
    forall i :: 0 <= i < |s| ==> IsAlnum(s[i])
  }

  /** True when `s` starts, at position `i`, with the text `w`. */
  predicate HasAt(s: string, i: nat, w: string) {
    i + |w| <= |s| && s[i..i + |w|] == w
  }

  /** `s` holds `x + y` at `i` exactly when it holds `x` there and `y` right after it. */
  lemma HasAtConcat(s: string, i: nat, x: string, y: string)
    ensures HasAt(s, i, x + y) <==> HasAt(s, i, x) && HasAt(s, i + |x|, y)
  {
    var j := i + |x|;
    var k := j + |y|;
    if k <= |s| {
      assert s[i..k] == s[i..j] + s[j..k];
      if s[i..k] == x + y {
        assert s[i..j] == (x + y)[..|x|] == x;
        assert s[j..k] == (x + y)[|x|..] == y;
      }
    }
  }

  /** A run that ends at a character outside the class is the longest run. */
  lemma SpanEndAt(s: string, i: nat, j: nat, p: char -> bool)
    requires i <= j <= |s|
    requires forall k :: i <= k < j ==> p(s[k])
    requires j == |s| || !p(s[j])
    ensures SpanEnd(s, i, p) == j
  {
  }

  /** The end of the longest run of characters satisfying `p` that starts at `i`:
      the greedy extent of a `p+` or `p*` pattern. */
  function SpanEnd(s: string, i: nat, p: char -> bool): (j: nat)
    requires i <= |s|
    ensures i <= j <= |s|
    ensures forall k :: i <= k < j ==> p(s[k])
    ensures j == |s| || !p(s[j])
    decreases |s| - i
  {
    if i < |s| && p(s[i]) then SpanEnd(s, i + 1, p) else i
  }

  function DigitValue(c: char): (d: nat)
    requires IsDigit(c)
    ensures d < 10
  {
    (c as int) - ('0' as int)
  }

  function DigitChar(d: nat): (c: char)
    requires d < 10
    ensures IsDigit(c) && DigitValue(c) == d
  {
    ('0' as int + d) as char
  }

  /** Python's `int(...)` applied to a run of ASCII digits: zero exactly when every
      digit is `0`, so leading zeros add nothing. */
  function Value(s: string): (v: nat)
    requires AllDigits(s)
    ensures v == 0 <==> forall i :: 0 <= i < |s| ==> s[i] == '0'
  {
    if |s| == 0 then 0
    else
      var init := s[..|s| - 1];
      assert forall i :: 0 <= i < |init| ==> init[i] == s[i];
      Value(init) * 10 + DigitValue(s[|s| - 1])
  }

  /** The decimal numeral of `n`, without leading zeros. */
  function Decimal(n: nat): (s: string)
    ensures |s| > 0 && AllDigits(s)
    ensures s[0] == '0' ==> n == 0
  {
    if n < 10 then [DigitChar(n)] else Decimal(n / 10) + [DigitChar(n % 10)]
  }

  /** Reading a numeral back gives the number that was written. */
  lemma {:induction false} ValueOfDecimal(n: nat)
    ensures Value(Decimal(n)) == n
  {
    if n >= 10 {
      var s := Decimal(n);
      assert s[..|s| - 1] == Decimal(n / 10);
      ValueOfDecimal(n / 10);
    }
  }
}

=== FILE: utils.dfy ===
/** The two text scanners of the scraper: the corner-kick reading in a statistics
    payload (`get_corners`) and the match identifier in a match link (`get_match_id`).

    Each regular expression is described twice: declaratively, as "the pattern occurs
    at position p with these groups" (what `re.search` promises), and operationally, as
    a left-to-right scan. The contracts of the scans state that they agree. */
module Utils {
  import opened Results
  import opened Text

  // ---------------------------------------------------------------------------
  // Corner kicks: pattern  Угловые¬SH÷(\d+)¬SI÷(\d+)
  // ---------------------------------------------------------------------------

  /** The label in front of the home side's corner count. */
  const CornersLabel: string := "Угловые¬SH÷"

  /** The separator in front of the away side's corner count. */
  const AwayLabel: string := "¬SI÷"

  /** Home corners, away corners and their sum, as `get_corners` reports them. */
  datatype Corners = Corners(home: nat, away: nat, total: nat)

  /** The text a marker with home digits `d1` and away digits `d2` occupies. */
  function MarkerText(d1: string, d2: string): string {
    CornersLabel + d1 + AwayLabel + d2
  }

  /** The corner reading made of two digit runs. */
  function Reading(d1: string, d2: string): Corners
    requires AllDigits(d1) && AllDigits(d2)
  {
    Corners(Value(d1), Value(d2), Value(d1) + Value(d2))
  }

  /** The pattern matches at `p` with groups `d1` and `d2`. The second group is
      greedy, so it is not followed by a further digit; the first group needs no
      such clause, since the separator after it does not start with a digit. */
  ghost predicate OccursAt(s: string, p: nat, d1: string, d2: string) {
    && |d1| > 0 && AllDigits(d1)
    && |d2| > 0 && AllDigits(d2)
    && HasAt(s, p, MarkerText(d1, d2))
    && (p + |MarkerText(d1, d2)| == |s| || !IsDigit(s[p + |MarkerText(d1, d2)|]))
  }

  ghost predicate MarkerAt(s: string, p: nat) {
    exists d1, d2 :: OccursAt(s, p, d1, d2)
  }

  /** Some substring of `s` matches the corner pattern. */
  ghost predicate HasMarker(s: string) {
    exists p: nat :: p <= |s| && MarkerAt(s, p)
  }

  /** Tries the pattern at position `p` only. */
  function ReadAt(s: string, p: nat): Option<Corners>
    requires p <= |s|
  {
    var a := p + |CornersLabel|;
    if !HasAt(s, p, CornersLabel) then None
    else
      var b := SpanEnd(s, a, IsDigit);
      if b == a || !HasAt(s, b, AwayLabel) then None
      else
        var c := b + |AwayLabel|;
        var e := SpanEnd(s, c, IsDigit);
        if e == c then None else Some(Reading(s[a..b], s[c..e]))
  }

  /** A marker occupies the label, the home digits, the separator and the away digits. */
  lemma MarkerParts(s: string, p: nat, d1: string, d2: string)
    ensures HasAt(s, p, MarkerText(d1, d2)) <==>
      && HasAt(s, p, CornersLabel)
      && HasAt(s, p + |CornersLabel|, d1)
      && HasAt(s, p + |CornersLabel| + |d1|, AwayLabel)
      && HasAt(s, p + |CornersLabel| + |d1| + |AwayLabel|, d2)
  {
    HasAtConcat(s, p, CornersLabel + d1 + AwayLabel, d2);
    HasAtConcat(s, p, CornersLabel + d1, AwayLabel);
    HasAtConcat(s, p, CornersLabel, d1);
  }

  lemma ReadAtComplete(s: string, p: nat, d1: string, d2: string)
    requires OccursAt(s, p, d1, d2)
    ensures p <= |s| && ReadAt(s, p) == Some(Reading(d1, d2))
  {
    MarkerParts(s, p, d1, d2);
    var a := p + |CornersLabel|;
    var b := a + |d1|;
    var c := b + |AwayLabel|;
    var e := c + |d2|;
    assert HasAt(s, a, d1) && HasAt(s, c, d2);
    DigitsSpan(s, a, d1);
    DigitsSpan(s, c, d2);
    assert s[b] == AwayLabel[0] by {
      assert HasAt(s, b, AwayLabel);
      assert s[b..c][0] == AwayLabel[0];
    }
    SpanEndAt(s, a, b, IsDigit);
    SpanEndAt(s, c, e, IsDigit);
  }

  /** A digit run held at `i` consists of digit characters of `s`. */
  lemma DigitsSpan(s: string, i: nat, d: string)
    requires HasAt(s, i, d) && AllDigits(d)
    ensures forall k :: i <= k < i + |d| ==> IsDigit(s[k])
    ensures s[i..i + |d|] == d
  {
    forall k | i <= k < i + |d| ensures IsDigit(s[k]) {
      assert s[k] == s[i..i + |d|][k - i];
    }
  }

  /** A run of digits cut out of `s` holds at its start and is all digits. */
  lemma SpanIsDigits(s: string, i: nat, j: nat)
    requires i <= j <= |s|
    requires forall k :: i <= k < j ==> IsDigit(s[k])
    ensures HasAt(s, i, s[i..j]) && AllDigits(s[i..j])
  {
    forall k | 0 <= k < j - i ensures IsDigit(s[i..j][k]) {
      assert s[i..j][k] == s[i + k];
    }
  }

  /** What a successful scan at `p` has seen: the label, a digit run, the separator,
      and a maximal digit run. */
  lemma ReadAtParts(s: string, p: nat) returns (a: nat, b: nat, c: nat, e: nat)
    requires p <= |s| && ReadAt(s, p).Some?
    ensures a == p + |CornersLabel| && HasAt(s, p, CornersLabel)
    ensures a < b <= |s| && b == SpanEnd(s, a, IsDigit)
    ensures c == b + |AwayLabel| && HasAt(s, b, AwayLabel)
    ensures c < e <= |s| && e == SpanEnd(s, c, IsDigit)
  {
    a := p + |CornersLabel|;
    b := SpanEnd(s, a, IsDigit);
    c := b + |AwayLabel|;
    e := SpanEnd(s, c, IsDigit);
  }

  lemma ReadAtSound(s: string, p: nat)
    requires p <= |s| && ReadAt(s, p).Some?
    ensures MarkerAt(s, p)
  {
    var a, b, c, e := ReadAtParts(s, p);
    var d1, d2 := s[a..b], s[c..e];
    SpanIsDigits(s, a, b);
    SpanIsDigits(s, c, e);
    MarkerParts(s, p, d1, d2);
    assert |MarkerText(d1, d2)| == e - p;
    assert OccursAt(s, p, d1, d2);
  }

  /** The scan at one position agrees with the pattern at that position. */
  lemma ReadAtCorrect(s: string, p: nat)
    requires p <= |s|
    ensures ReadAt(s, p).Some? <==> MarkerAt(s, p)
    ensures forall d1, d2 :: OccursAt(s, p, d1, d2) ==> ReadAt(s, p) == Some(Reading(d1, d2))
  {
    if ReadAt(s, p).Some? {
      ReadAtSound(s, p);
    }
    forall d1, d2 | OccursAt(s, p, d1, d2) ensures ReadAt(s, p) == Some(Reading(d1, d2)) {
      ReadAtComplete(s, p, d1, d2);
    }
  }

  /** `re.search` from position `p` on: the first position at or after `p` where the
      scan reads a marker, if there is one (see `FindMarkerIsLeftmost`). */
  function FindMarker(s: string, p: nat): (r: Option<nat>)
    requires p <= |s|
    ensures r.Some? ==> p <= r.value <= |s| && ReadAt(s, r.value).Some?
    decreases |s| - p
  {
    if ReadAt(s, p).Some? then Some(p)
    else if p == |s| then None
    else FindMarker(s, p + 1)
  }

  /** The search finds the leftmost position at or after `p` where the pattern
      matches, and nothing exactly when there is none. */
  lemma {:induction false} FindMarkerIsLeftmost(s: string, p: nat)
    requires p <= |s|
    ensures FindMarker(s, p).None? <==> forall q: nat :: p <= q <= |s| ==> !MarkerAt(s, q)
    ensures FindMarker(s, p).Some? ==> MarkerAt(s, FindMarker(s, p).value)
    ensures FindMarker(s, p).Some? ==> forall q: nat :: p <= q < FindMarker(s, p).value ==> !MarkerAt(s, q)
    decreases |s| - p
  {
    ReadAtCorrect(s, p);
    if ReadAt(s, p).Some? {
      assert FindMarker(s, p) == Some(p);
    } else if p == |s| {
      assert FindMarker(s, p) == None;
    } else {
      assert FindMarker(s, p) == FindMarker(s, p + 1);
      FindMarkerIsLeftmost(s, p + 1);
      var r := FindMarker(s, p + 1);
      var last := if r.Some? then r.value - 1 else |s|;
      forall q: nat | p <= q <= last ensures !MarkerAt(s, q) {
        if q == p {
          assert !MarkerAt(s, p);
        } else {
          assert p + 1 <= q;
        }
      }
    }
  }

  /** The leftmost occurrence of the pattern in `s` is at `p`. */
  ghost predicate FirstMarkerAt(s: string, p: nat) {
    p <= |s| && MarkerAt(s, p) && forall q: nat :: q < p ==> !MarkerAt(s, q)
  }

  /** `get_corners`: the reading of the leftmost marker in the payload, or `None`
      when no substring matches the pattern (see `GetCornersIsLeftmostMatch`). */
  function GetCorners(stat: string): (r: Option<Corners>)
    ensures r.Some? ==> r.value.total == r.value.home + r.value.away
  {
    match FindMarker(stat, 0)
    case None => None
    case Some(p) => ReadAt(stat, p)
  }

  /** `get_corners` implements `re.search`: it finds nothing exactly when no substring
      matches, and otherwise reads the groups of the leftmost match. */
  lemma GetCornersIsLeftmostMatch(stat: string)
    ensures GetCorners(stat).None? <==> !HasMarker(stat)
    ensures GetCorners(stat).Some? ==> exists p: nat, d1, d2 ::
      FirstMarkerAt(stat, p) && OccursAt(stat, p, d1, d2) && GetCorners(stat) == Some(Reading(d1, d2))
    ensures forall p: nat, d1, d2 ::
      FirstMarkerAt(stat, p) && OccursAt(stat, p, d1, d2) ==> GetCorners(stat) == Some(Reading(d1, d2))
  {
    FindMarkerIsLeftmost(stat, 0);
    var found := FindMarker(stat, 0);
    if found.Some? {
      var p := found.value;
      ReadAtCorrect(stat, p);
      assert FirstMarkerAt(stat, p);
      assert forall p': nat :: FirstMarkerAt(stat, p') ==> p' == p;
    }
  }

  /** No character of a marker but its first is the first letter of the label, so
      two occurrences never overlap. */
  lemma LabelStartsOnlyAtFront(d1: string, d2: string)
    requires AllDigits(d1) && AllDigits(d2)
    ensures forall i :: 0 < i < |MarkerText(d1, d2)| ==> MarkerText(d1, d2)[i] != CornersLabel[0]
  {
    var m := MarkerText(d1, d2);
    var n1 := |CornersLabel|;
    var n2 := n1 + |d1|;
    var n3 := n2 + |AwayLabel|;
    assert CornersLabel[1..] == "гловые¬SH÷";
    forall i | 0 < i < |m| ensures m[i] != CornersLabel[0] {
      if i < n1 {
        assert m[i] == CornersLabel[i];
        assert CornersLabel[i] in CornersLabel[1..];
      } else if i < n2 {
        assert m[i] == d1[i - n1];
      } else if i < n3 {
        assert m[i] == AwayLabel[i - n2];
      } else {
        assert m[i] == d2[i - n3];
      }
    }
  }

  /** An occurrence that starts before a position holding the label's first letter
      ends at or before that position. */
  lemma NoStraddle(s: string, q: nat, d1: string, d2: string, P: nat)
    requires OccursAt(s, q, d1, d2)
    requires q < P < |s| && s[P] == CornersLabel[0]
    ensures q + |MarkerText(d1, d2)| <= P
  {
    var m := MarkerText(d1, d2);
    LabelStartsOnlyAtFront(d1, d2);
    assert s[q..q + |m|] == m;
    assert forall i :: q <= i < q + |m| ==> s[i] == m[i - q];
  }

  /** An occurrence inside `s` is still an occurrence once text is appended, unless
      that text lengthens its second digit run. */
  lemma OccursAtExtend(s: string, t: string, q: nat, d1: string, d2: string)
    requires OccursAt(s, q, d1, d2)
    requires q + |MarkerText(d1, d2)| < |s| || |t| == 0 || !IsDigit(t[0])
    ensures OccursAt(s + t, q, d1, d2)
  {
    var e := q + |MarkerText(d1, d2)|;
    assert (s + t)[q..e] == s[q..e];
    if e < |s| {
      assert (s + t)[e] == s[e];
    } else if e < |s + t| {
      assert (s + t)[e] == t[0];
    }
  }

  /** An occurrence in `s + t` that ends inside `s` is an occurrence in `s`. */
  lemma OccursAtRestrict(s: string, t: string, q: nat, d1: string, d2: string)
    requires OccursAt(s + t, q, d1, d2)
    requires q + |MarkerText(d1, d2)| <= |s|
    ensures OccursAt(s, q, d1, d2)
  {
    var e := q + |MarkerText(d1, d2)|;
    assert (s + t)[q..e] == s[q..e];
    if e < |s| {
      assert (s + t)[e] == s[e];
    }
  }

  /** Occurrences that start before a position holding the label's first letter lie
      wholly in front of it, so they are occurrences in any text that keeps that front. */
  lemma EarlierOccurrences(s: string, t: string, P: nat)
    requires P <= |s| && P < |s + t| && (s + t)[P] == CornersLabel[0]
    ensures forall q: nat :: q < P && MarkerAt(s + t, q) ==> MarkerAt(s, q)
  {
    forall q: nat, d1, d2 | q < P && OccursAt(s + t, q, d1, d2) ensures OccursAt(s, q, d1, d2) {
      NoStraddle(s + t, q, d1, d2, P);
      OccursAtRestrict(s, t, q, d1, d2);
    }
  }

  /** The reading of a payload is that of its leftmost marker. */
  lemma GetCornersAt(s: string, p: nat, d1: string, d2: string)
    requires OccursAt(s, p, d1, d2)
    requires forall q: nat :: q < p ==> !MarkerAt(s, q)
    ensures GetCorners(s) == Some(Reading(d1, d2))
  {
    GetCornersIsLeftmostMatch(s);
    assert FirstMarkerAt(s, p);
  }

  /** Only the leftmost marker counts: text appended after a payload that already
      has a marker, further markers included, leaves the reading unchanged (unless it
      starts with a digit that lengthens the second count). */
  lemma {:induction false} CornersIgnoreLaterText(s: string, t: string)
    requires GetCorners(s).Some?
    requires |t| == 0 || !IsDigit(t[0])
    ensures GetCorners(s + t) == GetCorners(s)
  {
    GetCornersIsLeftmostMatch(s);
    var p: nat, d1, d2 :|
      FirstMarkerAt(s, p) && OccursAt(s, p, d1, d2) && GetCorners(s) == Some(Reading(d1, d2));
    OccursAtExtend(s, t, p, d1, d2);
    MarkerParts(s, p, d1, d2);
    assert s[p..p + |CornersLabel|] == CornersLabel;
    assert (s + t)[p] == s[p] == CornersLabel[0];
    EarlierOccurrences(s, t, p);
    GetCornersAt(s + t, p, d1, d2);
  }

  /** Round trip: a payload holding the marker for counts `a` and `b`, after text
      with no marker and before text that does not extend the second count, reads
      back as `(a, b, a + b)`. */
  lemma {:induction false} CornersRoundTrip(prefix: string, a: nat, b: nat, suffix: string)
    requires !HasMarker(prefix)
    requires |suffix| == 0 || !IsDigit(suffix[0])
    ensures GetCorners(prefix + CornersLabel + Decimal(a) + AwayLabel + Decimal(b) + suffix)
            == Some(Corners(a, b, a + b))
  {
    var da, db := Decimal(a), Decimal(b);
    var m := MarkerText(da, db);
    var u := m + suffix;
    var w := prefix + u;
    assert w == prefix + CornersLabel + da + AwayLabel + db + suffix;
    var P := |prefix|;
    MarkerInContext(prefix, da, db, suffix);
    EarlierOccurrences(prefix, u, P);
    assert forall q: nat :: q < P ==> !MarkerAt(w, q);
    GetCornersAt(w, P, da, db);
    assert GetCorners(w) == Some(Reading(da, db));
    ValueOfDecimal(a);
    ValueOfDecimal(b);
    assert Reading(da, db) == Corners(a, b, a + b);
  }

  /** A marker written between two texts occurs where it was written, provided the
      text after it does not extend its second count. */
  lemma MarkerInContext(prefix: string, d1: string, d2: string, suffix: string)
    requires |d1| > 0 && AllDigits(d1) && |d2| > 0 && AllDigits(d2)
    requires |suffix| == 0 || !IsDigit(suffix[0])
    ensures OccursAt(prefix + (MarkerText(d1, d2) + suffix), |prefix|, d1, d2)
    ensures (prefix + (MarkerText(d1, d2) + suffix))[|prefix|] == CornersLabel[0]
  {
    var m := MarkerText(d1, d2);
    var w := prefix + (m + suffix);
    var P := |prefix|;
    assert w[P..P + |m|] == m;
    assert m[0] == CornersLabel[0];
    if P + |m| < |w| {
      assert w[P + |m|] == suffix[0];
    }
  }

  /** The example of the statistics payload: counts 3 and 5 read as a total of 8. */
  lemma ThreeAndFiveMakeEight()
    ensures GetCorners("Угловые¬SH÷3¬SI÷5") == Some(Corners(3, 5, 8))
  {
    assert !HasMarker("");
    assert Decimal(3) == "3" && Decimal(5) == "5";
    CornersRoundTrip("", 3, 5, "");
    assert "" + CornersLabel + "3" + AwayLabel + "5" + "" == "Угловые¬SH÷3¬SI÷5";
  }

  // ---------------------------------------------------------------------------
  // Match identifier: pattern  mid=([A-Za-z0-9]+)
  // ---------------------------------------------------------------------------

  /** The query key in front of the match identifier. */
  const MidKey: string := "mid="

  /** The pattern matches at `p`: the key followed by at least one letter or digit. */
  predicate MidAt(s: string, p: nat) {
    HasAt(s, p, MidKey) && p + |MidKey| < |s| && IsAlnum(s[p + |MidKey|])
  }

  /** The pattern matches at `p` with group `id`, which is greedy and so maximal. */
  ghost predicate IdOccursAt(s: string, p: nat, id: string) {
    && |id| > 0 && AllAlnum(id)
    && HasAt(s, p, MidKey + id)
    && (p + |MidKey + id| == |s| || !IsAlnum(s[p + |MidKey + id|]))
  }

  /** The leftmost position at or after `p` where the pattern matches, if any. */
  function FindMid(s: string, p: nat): (r: Option<nat>)
    requires p <= |s|
    ensures r.None? <==> forall q: nat :: p <= q <= |s| ==> !MidAt(s, q)
    ensures r.Some? ==> p <= r.value <= |s| && MidAt(s, r.value)
    ensures r.Some? ==> forall q: nat :: p <= q < r.value ==> !MidAt(s, q)
    decreases |s| - p
  {
    if MidAt(s, p) then Some(p)
    else if p == |s| then None
    else FindMid(s, p + 1)
  }

  /** The group of a match at `p`: the greedy run of letters and digits after the key. */
  function IdAt(s: string, p: nat): (id: string)
    requires MidAt(s, p)
    ensures IdOccursAt(s, p, id)
  {
    var a := p + |MidKey|;
    var e := SpanEnd(s, a, IsAlnum);
    assert s[p..e] == s[p..a] + s[a..e];
    s[a..e]
  }

  /** A match of the pattern determines its group: the greedy run is unique, and a
      position with a group is a position where the pattern matches. */
  lemma IdOccursAtUnique(s: string, p: nat, id1: string, id2: string)
    requires IdOccursAt(s, p, id1) && IdOccursAt(s, p, id2)
    ensures id1 == id2 && MidAt(s, p)
  {
    var a := p + |MidKey|;
    assert s[p..p + |MidKey + id1|][|MidKey|..] == id1;
    assert s[p..p + |MidKey + id2|][|MidKey|..] == id2;
    assert s[p..p + |MidKey + id1|][..|MidKey|] == MidKey;
    assert s[a..a + |id1|] == id1;
    assert s[a..a + |id2|] == id2;
    assert s[a] == id1[0];
    assert forall k :: 0 <= k < |id1| ==> s[a + k] == id1[k];
    assert forall k :: 0 <= k < |id2| ==> s[a + k] == id2[k];
  }

  /** `get_match_id`: the non-empty, maximal run of ASCII letters and digits after
      the leftmost `mid=` that has one; `None` where the source raises, because
      `re.search` found nothing and `.group` is taken of `None`. */
  function GetMatchId(link: string): (r: Option<string>)
    ensures r.None? <==> forall p: nat :: p <= |link| ==> !MidAt(link, p)
    ensures r.Some? ==> |r.value| > 0 && AllAlnum(r.value)
    ensures r.Some? ==> exists p: nat ::
      IdOccursAt(link, p, r.value) && forall q: nat :: q < p ==> !MidAt(link, q)
    ensures forall p: nat, id ::
      IdOccursAt(link, p, id) && (forall q: nat :: q < p ==> !MidAt(link, q)) ==> r == Some(id)
  {
    var found := FindMid(link, 0);
    assert forall p: nat, id :: IdOccursAt(link, p, id) ==> MidAt(link, p) by {
      forall p: nat, id | IdOccursAt(link, p, id) ensures MidAt(link, p) {
        IdOccursAtUnique(link, p, id, id);
      }
    }
    if found.None? then None
    else
      var p := found.value;
      var id := IdAt(link, p);
      assert forall p': nat, id' ::
        IdOccursAt(link, p', id') && (forall q: nat :: q < p' ==> !MidAt(link, q)) ==> (p' == p && id' == id)
      by {
        forall p': nat, id' | IdOccursAt(link, p', id') && (forall q: nat :: q < p' ==> !MidAt(link, q))
          ensures p' == p && id' == id
        {
          IdOccursAtUnique(link, p', id', id');
          assert p' == p;
          IdOccursAtUnique(link, p, id', id);
        }
      }
      Some(id)
  }

  /** Round trip: a link holding `mid=` and an identifier, with no earlier match and
      followed by text that does not extend the identifier, yields that identifier.
      The prefix must not end in `mid=` itself, see `MidRoundTripNeedsCleanPrefix`. */
  lemma {:induction false} MatchIdRoundTrip(prefix: string, id: string, suffix: string)
    requires |id| > 0 && AllAlnum(id)
    requires |suffix| == 0 || !IsAlnum(suffix[0])
    requires forall p: nat :: p <= |prefix| ==> !MidAt(prefix, p)
    requires !(|prefix| >= |MidKey| && prefix[|prefix| - |MidKey|..] == MidKey)
    ensures GetMatchId(prefix + MidKey + id + suffix) == Some(id)
  {
    var w := prefix + MidKey + id + suffix;
    var P := |prefix|;
    var e := P + |MidKey + id|;
    assert w[P..e] == MidKey + id;
    assert e < |w| ==> w[e] == suffix[0];
    assert IdOccursAt(w, P, id);
    assert w[P] == 'm';
    // matches that end inside the prefix are matches of the prefix
    forall q: nat | q + |MidKey| < P ensures MidAt(w, q) == MidAt(prefix, q) {
      assert w[q..q + |MidKey|] == prefix[q..q + |MidKey|];
      assert w[q + |MidKey|] == prefix[q + |MidKey|];
    }
    // a key that ends where the prefix ends is a key the prefix ends with
    assert P >= |MidKey| ==> w[P - |MidKey|..P] == prefix[P - |MidKey|..];
    // a key that would overlap the inserted one is impossible: only its first letter is 'm'
    forall q: nat | q < P < q + |MidKey| ensures !HasAt(w, q, MidKey) {
      assert w[P] == 'm' != MidKey[P - q];
    }
    assert forall q: nat :: q < P ==> !MidAt(w, q);
  }

  /** Why the round trip needs its last precondition: after `xmid=`, the text
      `mid=abc` reads as the identifier `mid`. */
  lemma MidRoundTripNeedsCleanPrefix()
    ensures GetMatchId("xmid=" + MidKey + "abc") == Some("mid")
  {
    var w := "xmid=" + MidKey + "abc";
    assert w == "xmid=mid=abc";
    assert w[1..1 + |MidKey + "mid"|] == MidKey + "mid";
    assert IdOccursAt(w, 1, "mid");
    assert !MidAt(w, 0) by {
      assert w[0] == 'x' != MidKey[0];
    }
  }
}
